=== FILE: README.md ===
# go-boilerplate access control and controllers, modelled in Dafny

This project models the decision logic at the centre of the Fiber/Go CRUD boilerplate:

- **Token issuance** (`app/controller/auth.go`). `GetNewAccessToken` runs a fixed ladder of checks: parse the body, look the user up by username, verify the password with bcrypt, check that the account is active, then sign. Signing builds HS256 claims `user_id`, `admin` and `exp` (section 4.1.4 of RFC 7519, HMAC SHA-256 as in section 3.2 of RFC 7518) with an expiry of now plus the configured lifetime in minutes.
- **User management** (`app/controller/user.go`). `GetUsers`, `GetUser`, `CreateUser`, `UpdateUser` and `DeleteUser` each map the outcome of id parsing, store lookups, body parsing, validation and existence checks to 400/404/409/500/200 in a fixed order.
- **Configuration** (`pkg/config/config.go`). This covers the ENV, GO_ENV and APP_ENV precedence, the decision to read a `.env` file, and the Fiber read timeout.
- **Route access policy** (`pkg/route/private.go`, `pkg/route/public.go`). This covers which middleware (`JWTProtected`, `IsAdmin`) stands in front of which handler.

Everything is a pure function over immutable data:

- bcrypt and the JWT signer are function-typed parameters (`Auth.Crypto`) and are never interpreted.
- The clock reading (`time.Now`), the process environment (`os.Getenv`) and the result of reading the `.env` file are all parameters.
- The users table is `Repo.Db`: a `map<int, User>`, a scan order and the next id of the database sequence. The subset type `Repo.Table` keeps it in a valid state: ids are keys, the scan order is a permutation of the keys, and usernames and e-mail addresses are unique. Every handler has to prove it leaves the table valid.
- Each handler returns an `Api.Outcome`: the status and payload shape, the table afterwards, and the list of calls it made to the repository and to the crypto primitives. This is how "checked before", "no store access" and "the store is left unchanged" are stated.
- A database error is modelled by the handler parameter `faults`. It holds the positions in the call list at which the database answers with an error.

Go's fixed-width arithmetic is written out where the code depends on it:

- `strconv.ParseInt(s, 10, 32)` for path ids (`GoInt.ParseInt32`).
- `time.Duration` as a wrapping int64 (`GoTime.DurationMul`).
- `Time.Add` with Go's truncating `/` and `%` (`GoTime.Add`).
- `uint(pageSize*(pageNo-1))` (`Users.PageOffset`).

Routing is modelled after Fiber v2's registration and its default settings; `FiberConfig` changes none of the routing options. Fiber itself is not part of this model. `Group(prefix, mw...)` becomes a prefix-wide `Use` entry plus one handler entry per route line, walked in registration order (`Routes.RouteFrom`). A `Get` line also answers HEAD requests, since Fiber's `Get` registers its handlers for both methods (`Routes.Answers`). Paths are matched case-insensitively, with ASCII lower-casing, and a trailing slash is ignored. The walk is proved equal to a flat policy table (`Routes.Policy`).

Registration order decides whether `GET /api/v1/books` is public. The file that calls `PublicRoutes` and `PrivateRoutes` is not part of this model. `Routes.App` assumes public routes are registered first, and `Routes.RegistrationOrderMatters` shows what the other order would do.

## Model

| member | source | states |
|---|---|---|
| `Auth.GetNewAccessToken` | app/controller/auth.go:29-70 | A malformed body gives 400 with no call made. The user is looked up first, by the submitted name. An unknown user or failed lookup gives 404 "username not found" with no password check. A found user's password is checked second. A mismatch gives 401 "password is wrong" at once, whatever the account's state. A match on a disabled account gives 401 "user not active anymore.". The token is signed as the third call, over the issued claims, exactly when every check passed, and a signer error gives 500 with its message. 200 with a token is given exactly when the user is found, the password matches, the account is active and the signer succeeds. The answer to a 200 is the signer's token with the expiry message, for every configured lifetime. The one store call is the first. The table is only read. |
| `Auth.IssuedTokenNamesStoredUser` | app/controller/auth.go:57-69 | An issued token is the signer's output for HS256 claims. The claims name the stored, active user with the submitted username: its id as `user_id`, its admin flag as `admin`, and, when the lifetime fits a `time.Duration`, `exp` = now + 60 × TTL. |
| `Auth.WrongPasswordReportedBeforeInactive` | app/controller/auth.go:44-55 | An inactive account with a wrong password is told "password is wrong" (401), not that it is inactive. |
| `Auth.InactiveAccountRefused` | app/controller/auth.go:51-55 | An inactive account with the right password gets 401 "user not active anymore.". |
| `Auth.SigningFailureIsServerError` | app/controller/auth.go:58-64 | When every check passes but the signer fails, the answer is 500 with the signer's message and no access token. |
| `Auth.IsValidPassword` | app/controller/auth.go:100-107 | Never an error. True exactly when bcrypt's comparison reports no error. |
| `Auth.GeneratePasswordHash` | app/controller/auth.go:91-98 | Returns "" plus the error exactly when the hasher fails, and the hash with no error otherwise. |
| `Auth.IssuedClaims` | app/controller/auth.go:76-80 | The claims carry the given user id and admin flag. When the lifetime fits a `time.Duration`, `exp` is the Unix second of `now` plus 60 × the lifetime in minutes. |
| `Auth.GenerateNewAccessToken` | app/controller/auth.go:72-89 | Signs the issued claims with HS256 and the configured key. On a signer error it returns "" and that error, otherwise the signed token and no error. |
| `Auth.ExpiryMessage` | app/controller/auth.go:67 | The success message is the fixed words around the lifetime, and the text between them reads back as the configured number of minutes. |
| `Auth.HugeLifetimeWrapsIntoThePast` | app/controller/auth.go:80 | A lifetime of 153722868 minutes overflows the int64 nanosecond duration, and the token's `exp` lies before the issue time. |
| `GoTime.Add` | app/controller/auth.go:80 | `Time.Add` moves the instant by exactly the duration in nanoseconds, with the fraction kept in [0, 1e9). |
| `GoTime.AddWholeSeconds` | app/controller/auth.go:80 | Adding k whole seconds moves `Unix()` by exactly k and leaves the fraction unchanged. |
| `GoTime.DurationMul` | app/controller/auth.go:80 | `time.Duration` multiplication equals the exact product whenever that product fits in int64. |
| `GoInt.Wrap64` | app/controller/auth.go:80 | The int64 wrap-around stays in range, differs from the input by a multiple of 2^64, and is the identity on int64 values. |
| `GoInt.ParseInt32` | app/controller/user.go:61 | Accepts exactly an optional sign followed by decimal digits whose value fits in 32 bits, and yields that value. Anything else is an error naming the input. |
| `GoInt.ParseFormatRoundTrip` | app/controller/user.go:61 | Every 32-bit integer printed in decimal parses back to itself. |
| `GoInt.ParseRejectsOutOfRange` | app/controller/user.go:61 | A decimal integer outside the 32-bit range is refused. |
| `GoInt.DigitsValueOfFormatNat` | app/controller/auth.go:67 | The decimal spelling of a natural number reads back as that number. |
| `GoInt.FormatIntReadsBack` | app/controller/auth.go:67 | `%d` spells a well-formed decimal number whose value is the integer printed. |
| `GoInt.TruncDivOfMultiple` | app/controller/auth.go:80 | Go's truncating division of an exact multiple returns its factor with remainder 0. |
| `GoInt.TruncDivMod` | app/controller/auth.go:80 | Go's truncating `/` and `%` split a value exactly, with a remainder of the dividend's sign and smaller than the divisor. |
| `Users.GetUsers` | app/controller/user.go:28-45 | Asks the store for `pageSize` rows at offset `uint(pageSize*(pageNo-1))`. A store error gives 404 "users were not found". Otherwise the answer is 200 with the page number and size echoed. The users are the store's whole page: consecutive rows of the scan from that offset, at most `pageSize` of them, and `count` is their number. The table is unchanged. |
| `Users.PageOffset` | app/controller/user.go:31 | For page numbers of at least 1 and non-negative sizes, without overflow, the offset is `pageSize*(pageNo-1)`. |
| `Users.ToUint64` | app/controller/user.go:31 | Go's `uint` conversion keeps non-negative values and adds 2^64 to negative ones. |
| `Users.GetUser` | app/controller/user.go:60-79 | An id that is not a 32-bit decimal gives 400 before any store access. 200 is given exactly when the id is stored and the lookup does not fail, and the reply carries that row. Otherwise 404. The table is unchanged. |
| `Users.CreateUserWith` | app/controller/user.go:94-146 | Parse errors and validation errors both give 400 before any store access. Next comes the existence check on username or e-mail. It gives 409 exactly when it finds one, and 500 with nothing created when it fails. A row is written only by the third call, `Create`. It carries the submitted fields with the password replaced by the hasher's output, and a failing `Create` leaves the table unchanged. Once `Create` succeeds its row stays, so a failed re-read gives 500 with the row already written. The answer is 200, with the created row, exactly when every check passes and neither `Create` nor the re-read fails. |
| `Users.CreatedRowIsFoundByName` | app/controller/user.go:130-146 | After a create the existence check let through, the re-read by username finds exactly the new row. |
| `Users.CreateUser` | app/controller/user.go:94-146 | The handler as written answers only 200, 400, 409 or 500, and a 500 only on a database failure. |
| `Users.CreateUserKeepsUnhashablePassword` | app/controller/user.go:129 | As written, a password the hasher refuses still gives 200 and a stored user whose password is empty. |
| `Users.CreateUserChecked` | app/controller/user.go:129 | Corrected: a created row always holds the hasher's successful output as its password. |
| `Users.CreateUserCheckedRefusesUnhashablePassword` | app/controller/user.go:129 | Corrected: a hashing error gives 500 with the hasher's message and nothing is stored. |
| `Users.UpdateUser` | app/controller/user.go:162-212 | A bad id gives 400 with no call. Existence is checked first, so a missing id gives 404 even with a bad body. Once the row is found, a bad body and then a failed validation each give 400. `Update` is the second call, and when it fails the answer is 500. On 400, 404 and a failed update the table is untouched. Once `Update` succeeds the table holds the updated row, so a failed re-read gives 500 with the row already written. The only change ever made is to the addressed row, in first name, last name, active flag and admin flag. The answer is 200, with the re-read row, exactly when the id parses and is stored, the body parses and validates, and no database call fails. |
| `Users.DeleteUser` | app/controller/user.go:227-251 | A bad id gives 400 with no call. Otherwise the row is looked up first, and an absent id gives 404. `Delete` is called only as the second call, for the parsed id, once it was found. A failing `Delete` gives 500. A 200 returns an empty object and the row is gone. On any other outcome the table is unchanged. |
| `Repo.GetByUsername` | app/controller/auth.go:37 | The lookup succeeds exactly when some row has the username and the database does not fail, and it returns that stored row. |
| `Repo.Exists` | app/controller/user.go:117 | Fails only on a database error. `false` means no row has the username or the e-mail, and `true` means some row has one of them. |
| `Repo.Get` | app/controller/user.go:68 | The lookup succeeds exactly when the id is stored and the database does not fail, and it returns that row. |
| `Repo.Create` | app/controller/user.go:130 | A new row under the sequence's next id, appended to the scan order. |
| `Repo.Update` | app/controller/user.go:196 | Replaces only the four updatable fields of the addressed row. A missing row changes nothing. |
| `Repo.Delete` | app/controller/user.go:243 | Removes exactly the addressed row. |
| `Repo.Page` | app/controller/user.go:31 | Exactly `limit` rows, or the rest of the scan when fewer remain, or none past its end. A negative limit means no limit. The rows are consecutive in scan order from `offset`. |
| `Repo.All` | app/controller/user.go:31 | The page read fails only on a database error, and otherwise yields `Page`. |
| `Repo.Apply` | app/controller/user.go:178-196 | An update never changes id, username, e-mail or password. |
| `Repo.CreatePreservesValid` | app/controller/user.go:117-130 | A create after a negative existence check keeps ids and the scan order consistent, and usernames and e-mails unique. |
| `Repo.DeletePreservesValid` | app/controller/user.go:243 | A delete keeps the table valid. |
| `Repo.UpdatePreservesValid` | app/controller/user.go:196 | An update keeps the table valid, since it never touches ids, usernames or e-mail addresses. |
| `Config.EnvFileName` | pkg/config/config.go:17-19 | An empty file name becomes ".env". Any other name is used as given. |
| `Config.FirstNonEmpty` | pkg/config/config.go:22-28 | Reference rule: the result is "" exactly when every value is empty, and otherwise the first non-empty value. |
| `Config.EffectiveEnv` | pkg/config/config.go:22-28 | The loader's ladder picks the first non-empty trimmed, lower-cased value of ENV, then GO_ENV, then APP_ENV, as the reference rule `FirstNonEmpty` reads them. |
| `Config.BlankVariableFallsThrough` | pkg/config/config.go:22-28 | A whitespace-only ENV counts as unset, and GO_ENV then APP_ENV decide. |
| `Config.SetVariableWins` | pkg/config/config.go:22-24 | A non-blank ENV decides, whatever the other variables hold. |
| `Config.LoadAllConfigs` | pkg/config/config.go:16-40 | The `.env` file (name defaulted) is read if and only if the effective environment is "", "local", "dev" or "development". A failed read only logs. `LoadApp` then `LoadDBCfg` run last on every path. Nothing else happens: two steps without the read, three after a successful read, and four after a failed one. |
| `Config.PaddedUpperDevLoadsDotenv` | pkg/config/config.go:22-31 | " DEV " triggers reading the `.env` file. |
| `Config.ProdSkipsDotenv` | pkg/config/config.go:31 | "prod" does not trigger reading the `.env` file. |
| `Config.FiberConfig` | pkg/config/config.go:43-47 | The read timeout is the configured number of seconds as nanoseconds, when that fits in int64. |
| `GoStrings.TrimSpace` | pkg/config/config.go:22 | The result is a slice of the input with only white space outside it and none at either end. |
| `GoStrings.ToLower` | pkg/config/config.go:22 | The length is kept, and each character is lower-cased on its own. |
| `GoStrings.ToLowerLowerCases` | pkg/config/config.go:22 | After lower-casing no ASCII upper-case letter is left. Every other character is kept, and an upper-case letter becomes its lower-case partner. |
| `GoStrings.ToLowerIdempotent` | pkg/config/config.go:22 | Lower-casing twice gives the same text as lower-casing once. |
| `GoStrings.TrimSpaceEmptyIffAllSpace` | pkg/config/config.go:22-28 | Trimming leaves nothing exactly when the value is all white space. |
| `Routes.AppFollowsPolicy` | pkg/route/private.go:10-26 | For every request method (HEAD included) and path, the registered groups route the request to the same handler as the first matching row of the policy table, behind the same gates in the same order. |
| `Routes.EveryRuleIsRouted` | pkg/route/private.go:14-24 | Every row of the table is live. A request its method answers, on a path matching its pattern, reaches its handler behind exactly its gates. For example, PUT /api/v1/users/:id reaches `UpdateUser` behind `JWTProtected` then `IsAdmin`. |
| `Routes.PolicyUnambiguous` | pkg/route/private.go:14-24 | No request matches two rows, so each (method, path) has at most one handler. |
| `Routes.UserHandlersAreAdminGated` | pkg/route/private.go:12-18 | Any request that reaches a user-management handler went through `JWTProtected` and then `IsAdmin`, and nothing else. |
| `Routes.UserHandlersNeedBothGates` | pkg/route/private.go:12 | A user-management handler runs only if both gates pass. A failed authentication is answered by `JWTProtected` before `IsAdmin` is consulted. |
| `Routes.BookMutationsNeedOnlyAuthentication` | pkg/route/private.go:21-24 | Book create, update and delete requests pass `JWTProtected` alone, with no `IsAdmin`. |
| `Routes.UngatedRequests` | pkg/route/public.go:11-15 | A request that reaches a handler with no gate lies under /api/v1. It is a GET, a HEAD or the token endpoint, and its handler is `GetNewAccessToken`, `GetBooks` or `GetBook`. |
| `Routes.BooksPolicyDependsOnMethod` | pkg/route/public.go:13-15 | GET and HEAD on /api/v1/books and /api/v1/books/:id are ungated, while POST, PUT and DELETE there need `JWTProtected`. POST /api/v1/token/new reaches `GetNewAccessToken` ungated. |
| `Routes.RegistrationOrderMatters` | pkg/route/private.go:21 | If the private groups were registered before the public one, the books group's `JWTProtected` would also guard GET /api/v1/books. |
| `Routes.Serve` | pkg/route/private.go:12 | The handler runs exactly when a route was found and every gate passed. A rejection comes from the first objecting gate, with its status. An objecting gate always answers, so no route is reported exactly when every gate passes and no handler was found. |
| `Routes.RouteConcat` | pkg/route/private.go:12-21 | Walking two registration lists in a row equals walking the first and, if it found no handler, continuing into the second with the gates gathered so far. |
| `Routes.GroupRoute` | pkg/route/private.go:12 | A group answers with its first matching route line, after its middleware when the path lies under its prefix. |
| `Routes.Group` | pkg/route/private.go:12-18 | A group with middleware registers one prefix-wide `Use` entry first. Then comes one route entry per line, in order, with the prefix joined onto its path. |
| `Routes.RouteFrom` | pkg/route/private.go:12-24 | A walk answers with the handler of the first route entry that answers the request, and with no handler exactly when none does. The middleware gathered along the way only grows. |
| `Routes.PrivateRoutes` | pkg/route/private.go:10-26 | The users group's `Use(JWTProtected, IsAdmin)` comes before its five user-management lines under /api/v1/users. The books group's `Use(JWTProtected)` comes before its three book-change lines under /api/v1/books. |
| `Routes.PublicRoutes` | pkg/route/public.go:9-17 | The public group has no middleware. Its three lines lie under /api/v1 and lead to the token endpoint and the two book reads. |
| `Routes.RoutingIgnoresCase` | pkg/route/private.go:12-24 | Every request is routed exactly as the same path in lower case, so /API/V1/Users meets the same gates as /api/v1/users. |

## Left out

- bcrypt (`GenerateFromPassword`, `CompareHashAndPassword`) and JWT compact encoding and HMAC signing are opaque parameters. No hash/verify or sign/verify round trip is assumed.
- The `JWTProtected` and `IsAdmin` middleware bodies are opaque gates whose verdicts are parameters. Token validation (signature and expiry checks) and the 401/403 answers are not part of this model.
- The repository, `GetPagination`, the validator package and `dto.ToUser`/`dto.ToUsers` are not part of this model. The repository is the abstract `Repo.Db` with the behaviour its callers imply. Scan order stands in for SQL row order, and a negative limit means "no limit". `GetPagination` is assumed to yield a page number of at least 1. Validation is a parameter returning its error report. Payloads carry the stored record rather than the DTO.
- Fiber's context, JSON encoding, logging and exact error texts from foreign code are represented only as a status plus a payload shape. Error messages from foreign code are carried as opaque strings. A `strconv` error is represented by the offending input (`Api.BadId`).
- Request bodies arrive already parsed or as a parse error. Byte slices and strings are not distinguished.
- `Config.LoadAllConfigs` records the `LoadApp` and `LoadDBCfg` steps. Their bodies, and the variables the `.env` file sets, are not part of this model.
- `GoStrings.ToLower` lower-cases ASCII letters only. For the names compared against ("local", "dev", "development") this decides the same way as Unicode lower-casing, since no non-ASCII character lower-cases into those letters.
- `GoTime.Add` ignores the saturation Go applies when the seconds count itself overflows int64, and the monotonic clock reading.
- The file that calls `PublicRoutes` and `PrivateRoutes` is not part of this model. `Routes.App` assumes public routes are registered first.
- Fiber routing is reduced to segment patterns over an already split path. A trailing slash is ignored (non-strict routing), and a `:id` parameter matches one non-empty segment. Percent-decoding and empty segments from doubled slashes are not modelled. A `Use` entry applies to the paths under its prefix segment by segment, while Fiber compares the plain string prefix, so `/api/v1/usersx` would pass the users middleware in Fiber before its 404; this differs only for paths that reach no handler. Book handlers are named but not modelled.
- Routes.AppFollowsPolicy: request methods other than GET, HEAD, POST, PUT and DELETE are not in `Routes.Method`. No route line here answers them, so they reach no handler.
- Routes.Serve: a request with no route is `NoRoute`. Fiber's choice between 404 and 405 for it is not modelled.
- `platform/database/postgres.go` (connection setup) and `app/model/response.go` (plain structs) carry no decision logic.

## Findings

| source | as written | input that shows it | evidently intended | confidence | as-written member | corrected member |
|---|---|---|---|---|---|---|
| app/controller/user.go:129 | The error from `GeneratePasswordHash` is discarded, so `CreateUser` stores "" as the password and answers 200. | A create request whose password the hasher refuses, e.g. longer than 72 bytes, which current `golang.org/x/crypto/bcrypt` rejects with `ErrPasswordTooLong` (unless the validator tags, not part of this model, already cap the length). The stored account can never log in. | Answer 500 and store nothing when hashing fails. | medium; not executed | `Users.CreateUserKeepsUnhashablePassword` | `Users.CreateUserChecked` |

=== FILE: api.dfy ===
/** What a controller hands back to Fiber, reduced to a status code and the
    JSON payload's shape, plus the record of what the handler asked of the
    repository and of the crypto primitives, in order. */
module Api {
  import opened Repo

  const StatusOK: int := 200
  const StatusBadRequest: int := 400
  const StatusUnauthorized: int := 401
  const StatusNotFound: int := 404
  const StatusConflict: int := 409
  const StatusInternalServerError: int := 500

  /** The claims an access token carries: `user_id`, `admin` and `exp`
      (section 4.1.4 of RFC 7519, seconds since the epoch). */
  datatype Claims = Claims(userId: int, admin: bool, exp: int)

  /** The JWS algorithm; tokens here are only ever signed with HMAC SHA-256
      (section 3.2 of RFC 7518). */
  datatype SigningMethod = HS256

  datatype Payload =
    | Message(msg: string)                            // {"msg": ...}
    | BadId(input: string)                            // {"msg": <strconv error for input>}
    | InvalidInput(errors: string)                    // {"msg": "invalid input found", "errors": ...}
    | TokenIssued(msg: string, accessToken: string)   // {"msg": ..., "access_token": ...}
    | OneUser(user: User)                             // {"user": ...}
    | UserPage(page: int, pageSize: int, count: int, users: seq<User>)
    | EmptyObject                                     // {}

  datatype Reply = Reply(status: int, payload: Payload)

  /** Everything a handler asks of code outside this model. */
  datatype Call =
    | GetByUsernameCall(username: string)
    | AllCall(limit: int, offset: int)
    | GetCall(id: int)
    | ExistsCall(username: string, email: string)
    | CreateCall(user: NewUser)
    | UpdateCall(id: int, changes: UserChanges)
    | DeleteCall(id: int)
    | ComparePasswordCall
    | HashPasswordCall
    | SignCall(alg: SigningMethod, claims: Claims)

  predicate IsStoreCall(c: Call)
  {
    !(c.ComparePasswordCall? || c.HashPasswordCall? || c.SignCall?)
  }

  /** A handler's result: the reply, the table afterwards, and the calls made.
      `faults` (a handler parameter) holds the positions in the call list at
      which the database answers with an error. */
  datatype Outcome = Outcome(reply: Reply, db: Table, calls: seq<Call>)
}

=== FILE: auth.dfy ===
/** `app/controller/auth.go`: issuing an access token for a username and
    password. bcrypt and the JWT signer are parameters (`Crypto`) and are
    never interpreted; the clock reading and the configured secret and
    lifetime are parameters too. */
module Auth {
  import opened Wrappers
  import opened GoInt
  import opened GoTime
  import opened Repo
  import opened Api

  /** The login request body (`model.Auth`). */
  datatype Login = Login(username: string, password: string)

  /** The foreign primitives. `compare(hash, password)` is
      `bcrypt.CompareHashAndPassword` and yields its error, if any; `hash` is
      `bcrypt.GenerateFromPassword` at the default cost; `sign` is
      `Token.SignedString` with the given key. */
  datatype Crypto = Crypto(
    compare: (string, string) -> Option<string>,
    hash: string -> Result<string>,
    sign: (SigningMethod, Claims, string) -> Result<string>)

  /** `JWTSecretKey` and `JWTSecretExpireMinutesCount` of the app config. */
  datatype JwtConfig = JwtConfig(secretKey: string, expireMinutes: Int64)

  /** `IsValidPassword`: never an error, true exactly when bcrypt reports
      no mismatch. */
  function IsValidPassword(compare: (string, string) -> Option<string>,
                           hash: string, password: string): (ok: bool)
    ensures ok <==> compare(hash, password).None?
  {
    match compare(hash, password)
    case None => true
    case Some(_) => false
  }

  /** `GeneratePasswordHash`: the hash, or "" together with bcrypt's error. */
  function GeneratePasswordHash(hasher: string -> Result<string>, password: string)
    : (r: (string, Option<string>))
    ensures r.1.Some? <==> hasher(password).Err?
    ensures r.1.Some? ==> r.0 == "" && r.1.value == hasher(password).msg
    ensures r.1.None? ==> r.0 == hasher(password).value
  {
    match hasher(password)
    case Err(e) => ("", Some(e))
    case Ok(h) => (h, None)
  }

  /** The claims `GenerateNewAccessToken` fills in: the user's id and admin
      flag, and an expiry `ttl` minutes after `now`, computed through Go's
      `time.Duration` (an int64 count of nanoseconds). */
  function IssuedClaims(userId: int, isAdmin: bool, now: Time, ttl: Int64): (c: Claims)
    ensures c.userId == userId && c.admin == isAdmin
    ensures InInt64(ttl * Minute) ==> c.exp == Unix(now) + 60 * ttl
  {
    var exp := Unix(Add(now, DurationMul(Minute, ttl)));
    if InInt64(ttl * Minute) then
      assert ttl * Minute == (60 * ttl) * Second;
      AddWholeSeconds(now, 60 * ttl);
      Claims(userId, isAdmin, exp)
    else
      Claims(userId, isAdmin, exp)
  }

  /** `GenerateNewAccessToken(userID, isAdmin)`: an HS256 token over the
      issued claims, or "" and the signer's error. */
  function GenerateNewAccessToken(userId: int, isAdmin: bool, now: Time, cfg: JwtConfig,
                                  sign: (SigningMethod, Claims, string) -> Result<string>)
    : (r: (string, Option<string>))
    ensures var signed := sign(HS256, IssuedClaims(userId, isAdmin, now, cfg.expireMinutes),
                               cfg.secretKey);
      && (r.1.None? <==> signed.Ok?)
      && (r.1.None? ==> r.0 == signed.value)
      && (r.1.Some? ==> r.0 == "" && r.1.value == signed.msg)
  {
    var claims := IssuedClaims(userId, isAdmin, now, cfg.expireMinutes);
    match sign(HS256, claims, cfg.secretKey)
    case Err(e) => ("", Some(e))
    case Ok(t) => (t, None)
  }

  const ExpiryPrefix: string := "Token will be expired within "
  const ExpirySuffix: string := " minutes"

  /** The success message, `"Token will be expired within %d minutes"`: the
      fixed words around the lifetime, which reads back as the number. */
  function ExpiryMessage(minutes: int): (msg: string)
    ensures |msg| > |ExpiryPrefix| + |ExpirySuffix|
    ensures msg[..|ExpiryPrefix|] == ExpiryPrefix
    ensures msg[|msg| - |ExpirySuffix|..] == ExpirySuffix
    ensures var number := msg[|ExpiryPrefix|..|msg| - |ExpirySuffix|];
      DecimalSyntax(number) && SignedValue(number) == minutes
  {
    var number := FormatInt(minutes);
    FormatIntReadsBack(minutes);
    var msg := ExpiryPrefix + number + ExpirySuffix;
    assert msg[|ExpiryPrefix|..|msg| - |ExpirySuffix|] == number;

    msg
  }

  const UsernameNotFound: string := "username not found"
  const PasswordWrong: string := "password is wrong"
  const UserInactive: string := "user not active anymore."

  /** `GetNewAccessToken`. `body` is the outcome of parsing the request body;
      `faults` the positions in the call list at which the database fails. */
  function GetNewAccessToken(body: Result<Login>, db: Table, faults: set<nat>, now: Time,
                             cfg: JwtConfig, crypto: Crypto): (o: Outcome)
    // the table is only read, by the one lookup that comes first
    ensures o.db == db
    ensures forall i :: 0 <= i < |o.calls| && IsStoreCall(o.calls[i]) ==> i == 0
    // a malformed body is refused before anything else is asked
    ensures body.Err? <==> o.reply.status == StatusBadRequest
    ensures body.Err? ==> o.calls == [] && o.reply.payload == Message(body.msg)
    // otherwise the user is looked up first, by the submitted name
    ensures body.Ok? ==> |o.calls| >= 1 && o.calls[0] == GetByUsernameCall(body.value.username)
    // an unknown user (or a failed lookup) is 404 before any password check
    ensures body.Ok? && GetByUsername(db, body.value.username, 0 in faults).Err?
            <==> o.reply == Reply(StatusNotFound, Message(UsernameNotFound))
    ensures o.reply.status == StatusNotFound ==> ComparePasswordCall !in o.calls
    // a found user's password is checked second; a mismatch is 401 at once,
    // before the account's state is looked at
    ensures body.Ok? && GetByUsername(db, body.value.username, 0 in faults).Ok? ==>
      |o.calls| >= 2 && o.calls[1] == ComparePasswordCall
    ensures body.Ok? ==>
      var found := GetByUsername(db, body.value.username, 0 in faults);
      found.Ok? && crypto.compare(found.value.password, body.value.password).Some? ==>
        o.reply == Reply(StatusUnauthorized, Message(PasswordWrong)) && |o.calls| == 2
    // a matching password on a disabled account is 401 as well
    ensures body.Ok? ==>
      var found := GetByUsername(db, body.value.username, 0 in faults);
      found.Ok? && crypto.compare(found.value.password, body.value.password).None?
      && !found.value.isActive ==>
        o.reply == Reply(StatusUnauthorized, Message(UserInactive)) && |o.calls| == 2
    // a token is signed exactly when every check passed, over the issued
    // claims of the user found; a signer error is 500 with its message
    ensures |o.calls| == 3 <==>
      && body.Ok?
      && var found := GetByUsername(db, body.value.username, 0 in faults);
         && found.Ok?
         && crypto.compare(found.value.password, body.value.password).None?
         && found.value.isActive
    ensures |o.calls| == 3 ==>
      var user := GetByUsername(db, body.value.username, 0 in faults).value;
      var claims := IssuedClaims(user.id, user.isAdmin, now, cfg.expireMinutes);
      && o.calls[2] == SignCall(HS256, claims)
      && (crypto.sign(HS256, claims, cfg.secretKey).Err? ==>
            o.reply == Reply(StatusInternalServerError,
                             Message(crypto.sign(HS256, claims, cfg.secretKey).msg)))
    // a token is handed out only for a found, active user whose password checks
    ensures o.reply.status == StatusOK <==>
      && body.Ok?
      && var found := GetByUsername(db, body.value.username, 0 in faults);
         && found.Ok?
         && crypto.compare(found.value.password, body.value.password).None?
         && found.value.isActive
         && crypto.sign(HS256, IssuedClaims(found.value.id, found.value.isAdmin, now,
                                            cfg.expireMinutes), cfg.secretKey).Ok?
    // signing is attempted only after every check passed, and at most once
    ensures forall i :: 0 <= i < |o.calls| && o.calls[i].SignCall? ==> i == 2 && |o.calls| == 3
    ensures o.reply.payload.TokenIssued? <==> o.reply.status == StatusOK
    // the token handed out is the signer's output, for every lifetime
    ensures o.reply.status == StatusOK ==>
      var user := GetByUsername(db, body.value.username, 0 in faults).value;
      o.reply.payload == TokenIssued(ExpiryMessage(cfg.expireMinutes),
        crypto.sign(HS256, IssuedClaims(user.id, user.isAdmin, now, cfg.expireMinutes),
                    cfg.secretKey).value)
  {
    match body
    case Err(e) => Outcome(Reply(StatusBadRequest, Message(e)), db, [])
    case Ok(login) =>
      var calls := [GetByUsernameCall(login.username)];
      match GetByUsername(db, login.username, 0 in faults)
      case Err(_) => Outcome(Reply(StatusNotFound, Message(UsernameNotFound)), db, calls)
      case Ok(user) =>
        var calls := calls + [ComparePasswordCall];
        if !IsValidPassword(crypto.compare, user.password, login.password) then
          Outcome(Reply(StatusUnauthorized, Message(PasswordWrong)), db, calls)
        else if !user.isActive then
          Outcome(Reply(StatusUnauthorized, Message(UserInactive)), db, calls)
        else
          var claims := IssuedClaims(user.id, user.isAdmin, now, cfg.expireMinutes);
          var calls := calls + [SignCall(HS256, claims)];
          var (token, err) := GenerateNewAccessToken(user.id, user.isAdmin, now, cfg, crypto.sign);
          if err.Some? then
            Outcome(Reply(StatusInternalServerError, Message(err.value)), db, calls)
          else
            Outcome(Reply(StatusOK, TokenIssued(ExpiryMessage(cfg.expireMinutes), token)), db, calls)
  }

  // ---------------------------------------------------------------- lemmas

  /** A token handed out is the signer's output for HS256 claims naming the
      stored user, found by the submitted name: its id as `user_id`, its
      admin flag as `admin`, and an `exp` of `now` plus 60 seconds per
      configured minute. */
  lemma IssuedTokenNamesStoredUser(body: Result<Login>, db: Table, faults: set<nat>,
                                   now: Time, cfg: JwtConfig, crypto: Crypto)
    requires GetNewAccessToken(body, db, faults, now, cfg, crypto).reply.status == StatusOK
    requires InInt64(cfg.expireMinutes * Minute)
    ensures body.Ok?
    ensures exists id :: (
      && id in db.users && db.users[id].username == body.value.username
      && db.users[id].isActive
      && var claims := Claims(id, db.users[id].isAdmin, Unix(now) + 60 * cfg.expireMinutes);
         && GetNewAccessToken(body, db, faults, now, cfg, crypto).calls[2] == SignCall(HS256, claims)
         && GetNewAccessToken(body, db, faults, now, cfg, crypto).reply.payload
            == TokenIssued(ExpiryMessage(cfg.expireMinutes),
                           crypto.sign(HS256, claims, cfg.secretKey).value))
  {
    var user := GetByUsername(db, body.value.username, 0 in faults).value;
    assert user.id in db.users;
  }

  /** The password is judged before the account's state: a disabled account
      with a wrong password is told the password is wrong. */
  lemma WrongPasswordReportedBeforeInactive(login: Login, db: Table, faults: set<nat>,
                                            now: Time, cfg: JwtConfig, crypto: Crypto, id: int)
    requires 0 !in faults
    requires id in db.users && db.users[id].username == login.username
    requires !db.users[id].isActive
    requires crypto.compare(db.users[id].password, login.password).Some?
    ensures GetNewAccessToken(Ok(login), db, faults, now, cfg, crypto).reply
            == Reply(StatusUnauthorized, Message(PasswordWrong))
  {
    UsernamesAreKeys(db, id, GetByUsername(db, login.username, false).value.id);
  }

  /** A disabled account with the right password is refused as inactive. */
  lemma InactiveAccountRefused(login: Login, db: Table, faults: set<nat>,
                               now: Time, cfg: JwtConfig, crypto: Crypto, id: int)
    requires 0 !in faults
    requires id in db.users && db.users[id].username == login.username
    requires !db.users[id].isActive
    requires crypto.compare(db.users[id].password, login.password).None?
    ensures GetNewAccessToken(Ok(login), db, faults, now, cfg, crypto).reply
            == Reply(StatusUnauthorized, Message(UserInactive))
  {
    UsernamesAreKeys(db, id, GetByUsername(db, login.username, false).value.id);
  }

  /** In a valid table a username names at most one row. */
  lemma UsernamesAreKeys(db: Table, a: int, b: int)
    requires a in db.users && b in db.users
    requires db.users[a].username == db.users[b].username
    ensures a == b
  {
  }

  /** A signer that refuses gives 500 with its message and no access token. */
  lemma SigningFailureIsServerError(login: Login, db: Table, faults: set<nat>,
                                    now: Time, cfg: JwtConfig, crypto: Crypto, id: int)
    requires 0 !in faults
    requires id in db.users && db.users[id].username == login.username
    requires db.users[id].isActive
    requires crypto.compare(db.users[id].password, login.password).None?
    requires crypto.sign(HS256, IssuedClaims(id, db.users[id].isAdmin, now, cfg.expireMinutes),
                         cfg.secretKey).Err?
    ensures var o := GetNewAccessToken(Ok(login), db, faults, now, cfg, crypto);
      && o.reply.status == StatusInternalServerError
      && o.reply.payload == Message(crypto.sign(HS256, IssuedClaims(id, db.users[id].isAdmin, now,
                                                                    cfg.expireMinutes),
                                                cfg.secretKey).msg)
  {
    UsernamesAreKeys(db, id, GetByUsername(db, login.username, false).value.id);
  }

  /** A lifetime too large for a `time.Duration` wraps around: 153722868
      minutes is past int64's nanosecond range, and the token is born expired. */
  lemma HugeLifetimeWrapsIntoThePast(now: Time)
    ensures IssuedClaims(1, false, now, 153722868).exp < Unix(now)
  {
    var d := DurationMul(Minute, 153722868);
    assert d == 153722868 * Minute - TwoTo64;
    assert d < 0;
    TruncDivMod(d, Second);
  }
}

=== FILE: config.dfy ===
/** `pkg/config`: which environment the process believes it runs in, whether
    it tries to read a `.env` file, and the Fiber read timeout. The process
    environment is a parameter (`getenv`), and so is the outcome of reading
    the `.env` file; the loaders `LoadApp` and `LoadDBCfg` are recorded as
    steps, their bodies are not part of this model. */
module Config {
  import opened GoInt
  import opened GoStrings
  import GoTime

  const DefaultEnvFile: string := ".env"

  /** The variables consulted, highest precedence first. */
  const EnvVars: seq<string> := ["ENV", "GO_ENV", "APP_ENV"]

  /** The environment names for which a `.env` file is read. */
  const DevEnvs: set<string> := {"", "local", "dev", "development"}

  /** An empty file name means ".env"; any other is used as given. */
  function EnvFileName(envFile: string): (f: string)
    ensures f != ""
    ensures envFile == "" ==> f == DefaultEnvFile
    ensures envFile != "" ==> f == envFile
  {
    if envFile == "" then DefaultEnvFile else envFile
  }

  /** How one variable's value is read: surrounding white space dropped,
      then lower-cased. */
  function Normalize(v: string): string
  {
    ToLower(TrimSpace(v))
  }

  /** The effective environment, computed as the loader does it: ENV, and
      only if that is empty GO_ENV, and only if that is empty APP_ENV. */
  function EffectiveEnv(getenv: string -> string): (env: string)
    ensures env == FirstNonEmpty(NormalizedValues(getenv, EnvVars))
  {
    var vs := NormalizedValues(getenv, EnvVars);
    assert vs[1..][1..] == [vs[2]];
    assert [vs[2]][1..] == [];
    var env := Normalize(getenv("ENV"));
    var env := if env == "" then Normalize(getenv("GO_ENV")) else env;
    if env == "" then Normalize(getenv("APP_ENV")) else env
  }

  /** Reference reading of the precedence rule: the first non-empty value
      of a list, or "" when there is none. */
  function FirstNonEmpty(values: seq<string>): (r: string)
    ensures r == "" <==> forall i :: 0 <= i < |values| ==> values[i] == ""
    ensures r != "" ==> exists i :: 0 <= i < |values| && values[i] == r
                                    && forall j :: 0 <= j < i ==> values[j] == ""
  {
    if values == [] then ""
    else if values[0] != "" then values[0]
    else
      var r := FirstNonEmpty(values[1..]);
      assert forall i :: 1 <= i < |values| ==> values[i] == values[1..][i - 1];
      r
  }

  function NormalizedValues(getenv: string -> string, names: seq<string>): (vs: seq<string>)
    ensures |vs| == |names|
    ensures forall i :: 0 <= i < |names| ==> vs[i] == Normalize(getenv(names[i]))
  {
    if names == [] then [] else [Normalize(getenv(names[0]))] + NormalizedValues(getenv, names[1..])
  }

  /** Whether the loader tries to read the `.env` file for this environment. */
  predicate LoadsDotenv(env: string)
  {
    env in DevEnvs
  }

  /** What `LoadAllConfigs` does, in order. */
  datatype Step =
    | ReadDotenv(file: string)        // godotenv.Load(file)
    | LogDotenvFailure(file: string)  // the non-fatal log line on failure
    | LoadApp
    | LoadDBCfg

  /** `LoadAllConfigs(envFile)`. `dotenvOk(f)` says whether reading file `f`
      succeeds. */
  function LoadAllConfigs(envFile: string, getenv: string -> string,
                          dotenvOk: string -> bool): (steps: seq<Step>)
    ensures |steps| >= 2 && steps[|steps| - 2..] == [LoadApp, LoadDBCfg]
    ensures LoadsDotenv(EffectiveEnv(getenv))
            <==> steps[0] == ReadDotenv(EnvFileName(envFile))
    ensures !LoadsDotenv(EffectiveEnv(getenv)) ==> steps == [LoadApp, LoadDBCfg]
    ensures LogDotenvFailure(EnvFileName(envFile)) in steps
            <==> LoadsDotenv(EffectiveEnv(getenv)) && !dotenvOk(EnvFileName(envFile))
    // nothing else happens: at most one read, and at most one log line after it
    ensures |steps| == 2 + (if !LoadsDotenv(EffectiveEnv(getenv)) then 0
                            else if dotenvOk(EnvFileName(envFile)) then 1 else 2)
  {
    var file := EnvFileName(envFile);
    LoadSteps(file, LoadsDotenv(EffectiveEnv(getenv)), dotenvOk(file))
  }

  /** The steps once it is known whether the file is to be read and whether
      reading it succeeds. */
  function LoadSteps(file: string, readDotenv: bool, readOk: bool): (steps: seq<Step>)
    ensures |steps| >= 2 && steps[|steps| - 2..] == [LoadApp, LoadDBCfg]
    ensures readDotenv <==> steps[0] == ReadDotenv(file)
    ensures !readDotenv ==> steps == [LoadApp, LoadDBCfg]
    ensures LogDotenvFailure(file) in steps <==> readDotenv && !readOk
    ensures |steps| == 2 + (if !readDotenv then 0 else if readOk then 1 else 2)
  {
    var dotenv :=
      if readDotenv then
        [ReadDotenv(file)] + (if readOk then [] else [LogDotenvFailure(file)])
      else [];
    dotenv + [LoadApp, LoadDBCfg]
  }

  /** The Fiber server settings the configuration produces. */
  datatype FiberSettings = FiberSettings(readTimeout: Int64)  // nanoseconds

  /** `FiberConfig`: the configured read timeout in seconds, as a Go
      `time.Duration` (`time.Second * time.Duration(n)`, which wraps in int64). */
  function FiberConfig(readTimeoutSeconds: Int64): (c: FiberSettings)
    ensures InInt64(readTimeoutSeconds * GoTime.Second)
            ==> c.readTimeout == readTimeoutSeconds * GoTime.Second
  {
    FiberSettings(GoTime.DurationMul(GoTime.Second, readTimeoutSeconds))
  }

  // ---------------------------------------------------------------- lemmas

  /** A variable holding only white space counts as unset: GO_ENV and
      APP_ENV decide, in that order. */
  lemma BlankVariableFallsThrough(getenv: string -> string)
    requires AllSpace(getenv("ENV"))
    ensures EffectiveEnv(getenv)
            == FirstNonEmpty([Normalize(getenv("GO_ENV")), Normalize(getenv("APP_ENV"))])
  {
    TrimSpaceEmptyIffAllSpace(getenv("ENV"));
    var vs := [Normalize(getenv("GO_ENV")), Normalize(getenv("APP_ENV"))];
    assert vs[1..] == [vs[1]];
    assert [vs[1]][1..] == [];
  }

  /** A value that is set wins whatever the lower-priority variables say. */
  lemma SetVariableWins(getenv: string -> string)
    requires !AllSpace(getenv("ENV"))
    ensures EffectiveEnv(getenv) == Normalize(getenv("ENV")) != ""
  {
    TrimSpaceEmptyIffAllSpace(getenv("ENV"));
  }

  /** Case and surrounding white space do not matter: " DEV " reads the
      `.env` file. */
  lemma PaddedUpperDevLoadsDotenv()
    ensures LoadsDotenv(Normalize(" DEV "))
  {
    var padded, left, core := " DEV ", "DEV ", "DEV";
    assert padded[1..] == left;
    assert IsSpace(padded[0]) && !IsSpace(left[0]);
    assert TrimLeft(padded) == left;
    assert left[..|left| - 1] == core;
    assert IsSpace(left[|left| - 1]) && !IsSpace(core[|core| - 1]);
    assert TrimRight(left) == core;
    assert ToLower(core) == "dev";
  }

  /** "prod" is not a development environment: no `.env` file is read. */
  lemma ProdSkipsDotenv()
    ensures !LoadsDotenv(Normalize("prod"))
  {
    assert TrimLeft("prod") == "prod";
    assert TrimRight("prod") == "prod";
    assert ToLower("prod") == "prod";
  }
}

=== FILE: goint.dfy ===
/** Go's fixed-width integer behaviour and the two `strconv` calls the
    controllers rely on: `strconv.ParseInt(s, 10, 32)` for path ids and the
    `%d` formatting of the token lifetime. */
module GoInt {

  const Int32Min: int := -0x8000_0000
  const Int32Max: int := 0x7fff_ffff
  const Int64Min: int := -0x8000_0000_0000_0000
  const Int64Max: int := 0x7fff_ffff_ffff_ffff
  const TwoTo64: int := 0x1_0000_0000_0000_0000

  predicate InInt32(n: int) { Int32Min <= n <= Int32Max }
  predicate InInt64(n: int) { Int64Min <= n <= Int64Max }

  /** Go's `int`/`int64` on a 64-bit platform. */
  type Int64 = n: int | InInt64(n)

  /** Two's-complement wrap-around of an `int64` multiplication or addition. */
  function Wrap64(x: int): (r: int)
    ensures InInt64(r)
    ensures (r - x) % TwoTo64 == 0
    ensures InInt64(x) ==> r == x
  {
    (x - Int64Min) % TwoTo64 + Int64Min
  }

  /** Go's `/` for a positive divisor: the quotient is truncated toward zero. */
  function TruncDiv(a: int, d: int): int
    requires d > 0
  {
    if a >= 0 then a / d else -((-a) / d)
  }

  /** Go's `%` for a positive divisor: the remainder takes the sign of `a`. */
  function TruncMod(a: int, d: int): int
    requires d > 0
  {
    a - TruncDiv(a, d) * d
  }

  /** Go's truncating `/` and `%` split `a` exactly, with a remainder of the
      sign of `a` and smaller than the divisor. */
  lemma TruncDivMod(a: int, d: int)
    requires d > 0
    ensures a == TruncDiv(a, d) * d + TruncMod(a, d)
    ensures a >= 0 ==> 0 <= TruncMod(a, d) < d
    ensures a < 0 ==> -d < TruncMod(a, d) <= 0
  {
    if a < 0 {
      var q := (-a) / d;
      assert -a == q * d + (-a) % d;
    }
  }

  /** An exact multiple divides back to its factor with nothing left over. */
  lemma {:induction false} TruncDivOfMultiple(k: int, d: int)
    requires d > 0
    ensures TruncDiv(k * d, d) == k
    ensures TruncMod(k * d, d) == 0
  {
    if k >= 0 {
      assert k * d >= 0;
      DivOfMultiple(k, d);
    } else {
      assert -(k * d) == (-k) * d;
      DivOfMultiple(-k, d);
    }
  }

  lemma DivOfMultiple(k: nat, d: int)
    requires d > 0
    ensures (k * d) / d == k
  {
    var q, r := (k * d) / d, (k * d) % d;
    assert k * d == q * d + r && 0 <= r < d;
    if q < k {
      MulMonotone(q + 1, k, d);
    } else if q > k {
      MulMonotone(k + 1, q, d);
    }
  }

  lemma MulMonotone(a: int, b: int, d: int)
    requires a <= b && d > 0
    ensures a * d <= b * d
  {
    assert b * d - a * d == (b - a) * d;
  }

  // ---------------------------------------------------------------- digits

  predicate IsDigit(c: char) { '0' <= c <= '9' }

  predicate AllDigits(s: string) { forall i :: 0 <= i < |s| ==> IsDigit(s[i]) }

  function DigitChar(d: int): (c: char)
    requires 0 <= d < 10
    ensures IsDigit(c) && (c - '0') as int == d
  {
    ('0' as int + d) as char
  }

  /** The value of a run of decimal digits, most significant first. */
  function DigitsValue(s: string): nat
    requires AllDigits(s)
  {
    if s == [] then 0 else DigitsValue(s[..|s| - 1]) * 10 + (s[|s| - 1] - '0') as int
  }

  /** The shortest decimal spelling of a natural number. */
  function FormatNat(n: nat): (s: string)
    ensures |s| >= 1 && AllDigits(s)
    ensures |s| > 1 ==> s[0] != '0'
  {
    if n < 10 then [DigitChar(n)] else FormatNat(n / 10) + [DigitChar(n % 10)]
  }

  /** `strconv.Itoa` / the `%d` verb. */
  function FormatInt(n: int): string
  {
    if n < 0 then "-" + FormatNat(-n) else FormatNat(n)
  }

  // ---------------------------------------------------------------- ParseInt

  datatype ParseResult = Parsed(n: int) | NumError(input: string)

  /** The text `strconv.ParseInt(s, 10, 32)` accepts as a number: an optional
      sign followed by at least one decimal digit (base 10 admits no `_`). */
  predicate DecimalSyntax(s: string)
  {
    && |s| >= 1
    && var digits := if s[0] == '+' || s[0] == '-' then s[1..] else s;
       |digits| >= 1 && AllDigits(digits)
  }

  function Magnitude(s: string): nat
    requires DecimalSyntax(s)
  {
    DigitsValue(if s[0] == '+' || s[0] == '-' then s[1..] else s)
  }

  function SignedValue(s: string): int
    requires DecimalSyntax(s)
  {
    var m: int := Magnitude(s);
    if s[0] == '-' then -m else m
  }

  /** `strconv.ParseInt(s, 10, 32)`: an empty string, a stray character or a
      value outside the 32-bit range is an error (syntax or range; the
      controllers treat both alike). */
  function ParseInt32(s: string): (r: ParseResult)
    ensures r.Parsed? <==> DecimalSyntax(s) && InInt32(SignedValue(s))
    ensures r.Parsed? ==> InInt32(r.n) && r.n == SignedValue(s)
    ensures r.NumError? ==> r.input == s
  {
    if s == "" then NumError(s)
    else
      var neg := s[0] == '-';
      var digits := if s[0] == '+' || s[0] == '-' then s[1..] else s;
      if digits == "" || !AllDigits(digits) then NumError(s)
      else
        var u: int := DigitsValue(digits);
        if !neg && u > Int32Max then NumError(s)
        else if neg && u > -Int32Min then NumError(s)
        else Parsed(if neg then -u else u)
  }

  // ---------------------------------------------------------------- lemmas

  lemma {:induction false} DigitsValueOfFormatNat(n: nat)
    ensures DigitsValue(FormatNat(n)) == n
  {
    if n >= 10 {
      var s := FormatNat(n);
      assert s[..|s| - 1] == FormatNat(n / 10);
      DigitsValueOfFormatNat(n / 10);
    }
  }

  /** `FormatInt` spells a decimal number whose value is the integer. */
  lemma FormatIntReadsBack(n: int)
    ensures DecimalSyntax(FormatInt(n)) && SignedValue(FormatInt(n)) == n
  {
    var s := FormatInt(n);
    if n < 0 {
      assert s[1..] == FormatNat(-n);
      DigitsValueOfFormatNat(-n);
    } else {
      DigitsValueOfFormatNat(n);
    }
  }

  /** Every 32-bit integer survives `FormatInt` then `ParseInt32`. */
  lemma ParseFormatRoundTrip(n: int)
    requires InInt32(n)
    ensures ParseInt32(FormatInt(n)) == Parsed(n)
  {
    var s := FormatInt(n);
    if n < 0 {
      assert s[1..] == FormatNat(-n);
      DigitsValueOfFormatNat(-n);
    } else {
      DigitsValueOfFormatNat(n);
    }
  }

  /** The decimal spelling of a value out of the 32-bit range is refused
      (`ParseInt32`'s own contract covers every other spelling). */
  lemma ParseRejectsOutOfRange(n: int)
    requires !InInt32(n)
    ensures ParseInt32(FormatInt(n)).NumError?
  {
    var s := FormatInt(n);
    if n < 0 {
      assert s[1..] == FormatNat(-n);
      DigitsValueOfFormatNat(-n);
    } else {
      DigitsValueOfFormatNat(n);
    }
  }
}

=== FILE: gostrings.dfy ===
/** `strings.TrimSpace` and `strings.ToLower` as the configuration loader
    uses them. White space is Unicode's White_Space set, which is what Go's
    `unicode.IsSpace` tests; lower-casing covers ASCII letters only. */
module GoStrings {

  /** `unicode.IsSpace`. */
  predicate IsSpace(c: char)
  {
    || ('\t' <= c <= '\r')              // U+0009 .. U+000D
    || c == ' ' || c == '\U{0085}' || c == '\U{00A0}' || c == '\U{1680}'
    || ('\U{2000}' <= c <= '\U{200A}')
    || c == '\U{2028}' || c == '\U{2029}' || c == '\U{202F}' || c == '\U{205F}'
    || c == '\U{3000}'
  }

  predicate AllSpace(s: string)
  {
    forall i :: 0 <= i < |s| ==> IsSpace(s[i])
  }

  /** Drops leading white space: the result is a suffix of `s` that is empty
      or starts with a non-space, and everything dropped was white space. */
  function TrimLeft(s: string): (r: string)
    ensures |r| <= |s| && r == s[|s| - |r|..]
    ensures AllSpace(s[..|s| - |r|])
    ensures r != [] ==> !IsSpace(r[0])
  {
    if s != [] && IsSpace(s[0]) then TrimLeft(s[1..]) else s
  }

  /** Drops trailing white space: the result is a prefix of `s` that is
      empty or ends in a non-space, and everything dropped was white space. */
  function TrimRight(s: string): (r: string)
    ensures |r| <= |s| && r == s[..|r|]
    ensures AllSpace(s[|r|..])
    ensures r != [] ==> !IsSpace(r[|r| - 1])
  {
    if s != [] && IsSpace(s[|s| - 1]) then
      var r := TrimRight(s[..|s| - 1]);
      assert s[|r|..] == s[..|s| - 1][|r|..] + [s[|s| - 1]];
      r
    else s
  }

  /** `strings.TrimSpace`: a slice of `s` with white space only outside it
      and none at either of its ends. */
  function TrimSpace(s: string): (r: string)
    ensures exists i, j :: 0 <= i <= j <= |s| && r == s[i..j]
                           && AllSpace(s[..i]) && AllSpace(s[j..])
    ensures r != [] ==> !IsSpace(r[0]) && !IsSpace(r[|r| - 1])
  {
    var l := TrimLeft(s);
    var r := TrimRight(l);
    var i := |s| - |l|;
    var j := i + |r|;
    assert r == s[i..j];
    assert s[j..] == l[|r|..];
    assert 0 <= i <= j <= |s| && r == s[i..j] && AllSpace(s[..i]) && AllSpace(s[j..]);
    r
  }

  /** `unicode.ToLower` restricted to ASCII. */
  function LowerChar(c: char): char
  {
    if 'A' <= c <= 'Z' then (c as int - 'A' as int + 'a' as int) as char else c
  }

  /** `strings.ToLower`, ASCII letters only. */
  function ToLower(s: string): (r: string)
    ensures |r| == |s|
    ensures forall i :: 0 <= i < |s| ==> r[i] == LowerChar(s[i])
  {
    if s == [] then [] else [LowerChar(s[0])] + ToLower(s[1..])
  }

  /** What lower-casing means: no upper-case ASCII letter is left, every
      other character is kept, and an upper-case letter becomes its
      lower-case partner, 32 code points on. */
  lemma ToLowerLowerCases(s: string)
    ensures forall i :: 0 <= i < |s| ==> !('A' <= ToLower(s)[i] <= 'Z')
    ensures forall i :: 0 <= i < |s| && !('A' <= s[i] <= 'Z') ==> ToLower(s)[i] == s[i]
    ensures forall i :: 0 <= i < |s| && 'A' <= s[i] <= 'Z' ==> ToLower(s)[i] as int == s[i] as int + 32
  {
  }

  /** Trimming leaves nothing exactly when the text is all white space. */
  lemma TrimSpaceEmptyIffAllSpace(s: string)
    ensures TrimSpace(s) == "" <==> AllSpace(s)
  {
    var r := TrimSpace(s);
    var i, j :| 0 <= i <= j <= |s| && r == s[i..j] && AllSpace(s[..i]) && AllSpace(s[j..]);
    if r == "" {
      assert i == j;
      forall k | 0 <= k < |s| ensures IsSpace(s[k]) {
        if k < i { assert s[k] == s[..i][k]; } else { assert s[k] == s[j..][k - j]; }
      }
    }
  }

  /** Lower-casing twice is lower-casing once. */
  lemma ToLowerIdempotent(s: string)
    ensures ToLower(ToLower(s)) == ToLower(s)
  {
    var t := ToLower(s);
    assert forall i :: 0 <= i < |t| ==> LowerChar(t[i]) == t[i];
  }
}

=== FILE: gotime.dfy ===
/** The slice of Go's `time` package the token issuer uses: a wall-clock
    instant, `Time.Add` of an `int64` nanosecond `Duration`, and `Time.Unix`.
    The clock itself (`time.Now`) is never read here; callers pass the instant. */
module GoTime {
  import opened GoInt

  const Second: int := 1_000_000_000
  const Minute: int := 60 * Second

  type Nsec = n: int | 0 <= n < 1_000_000_000

  /** An instant as Go keeps it: whole seconds since the Unix epoch plus a
      nanosecond fraction in [0, 1e9). */
  datatype Time = Time(sec: int, nsec: Nsec)

  /** The instant as a single count of nanoseconds (a reading aid only). */
  function TotalNanos(t: Time): int
  {
    t.sec * Second + t.nsec
  }

  /** `time.Duration` multiplication, `int64` arithmetic that wraps. */
  function DurationMul(a: Int64, b: Int64): (d: Int64)
    ensures InInt64(a * b) ==> d == a * b
  {
    Wrap64(a * b)
  }

  /** `Time.Add`: split the duration with Go's truncating `/` and `%`, then
      carry the nanosecond fraction back into [0, 1e9). */
  function Add(t: Time, d: Int64): (u: Time)
    ensures TotalNanos(u) == TotalNanos(t) + d
  {
    TruncDivMod(d, Second);
    var dsec := TruncDiv(d, Second);
    var nsec := t.nsec + TruncMod(d, Second);
    if nsec >= Second then Time(t.sec + dsec + 1, nsec - Second)
    else if nsec < 0 then Time(t.sec + dsec - 1, nsec + Second)
    else Time(t.sec + dsec, nsec)
  }

  /** `Time.Unix`: whole seconds, the fraction dropped. */
  function Unix(t: Time): int
  {
    t.sec
  }

  /** Adding a whole number of seconds moves `Unix` by exactly that many and
      leaves the fraction alone. */
  lemma AddWholeSeconds(t: Time, k: int)
    requires InInt64(k * Second)
    ensures Unix(Add(t, k * Second)) == Unix(t) + k
    ensures Add(t, k * Second).nsec == t.nsec
  {
    TruncDivOfMultiple(k, Second);
  }
}

=== FILE: repo.dfy ===
/** The users table behind `repo.NewUserRepo`, as the controllers see it.
    The repository's source is not part of this model: each operation here
    is the behaviour its name and its callers imply, and any call may instead
    fail with a database error, chosen by the caller of the model. */
module Repo {
  import opened Wrappers

  datatype User = User(
    id: int,
    username: string,
    email: string,
    password: string,   // the stored bcrypt hash
    firstName: string,
    lastName: string,
    isActive: bool,
    isAdmin: bool)

  /** The table: rows by id, the order a full scan returns them in, and the
      next id the database's sequence hands out. */
  datatype Db = Db(users: map<int, User>, order: seq<int>, nextId: int)

  /** What the table always satisfies: each row is stored under its own id,
      below the sequence's next value; the scan order lists every row once;
      usernames and e-mail addresses are unique. */
  ghost predicate Valid(db: Db)
  {
    && (forall id :: id in db.users ==> db.users[id].id == id && id < db.nextId)
    && (forall i :: 0 <= i < |db.order| ==> db.order[i] in db.users)
    && (forall id :: id in db.users ==> id in db.order)
    && Distinct(db.order)
    && (forall a, b :: a in db.users && b in db.users && a != b ==>
          db.users[a].username != db.users[b].username
          && db.users[a].email != db.users[b].email)
  }

  /** A table in a state the database can actually be in. */
  type Table = db: Db | Valid(db) witness Db(map[], [], 0)

  predicate Distinct(ids: seq<int>)
  {
    forall i, j :: 0 <= i < j < |ids| ==> ids[i] != ids[j]
  }

  const NotFound: string := "record not found"
  const DbError: string := "database error"

  /** `Get(id)`. */
  function Get(db: Db, id: int, fails: bool): (r: Result<User>)
    ensures r.Ok? <==> !fails && id in db.users
    ensures r.Ok? ==> r.value == db.users[id]
  {
    if fails then Err(DbError)
    else if id in db.users then Ok(db.users[id])
    else Err(NotFound)
  }

  /** The first id in `ids` whose row has this username. */
  function FirstWithUsername(users: map<int, User>, ids: seq<int>, name: string): (r: Option<int>)
    requires forall i :: 0 <= i < |ids| ==> ids[i] in users
    ensures r.None? <==> forall i :: 0 <= i < |ids| ==> users[ids[i]].username != name
    ensures r.Some? ==> r.value in ids && users[r.value].username == name
  {
    if ids == [] then None
    else if users[ids[0]].username == name then Some(ids[0])
    else
      var r := FirstWithUsername(users, ids[1..], name);
      assert forall i :: 1 <= i < |ids| ==> ids[i] == ids[1..][i - 1];
      r
  }

  /** `GetByUsername(name)`: the first row of the scan with that username. */
  function GetByUsername(db: Table, name: string, fails: bool): (r: Result<User>)
    ensures r.Ok? <==> !fails && exists id :: id in db.users && db.users[id].username == name
    ensures r.Ok? ==> r.value.id in db.users && db.users[r.value.id] == r.value
                      && r.value.username == name
  {
    if fails then Err(DbError)
    else
      match FirstWithUsername(db.users, db.order, name)
      case Some(id) => Ok(db.users[id])
      case None => Err(NotFound)
  }

  /** `Exists(username, email)`: some row has this username or this e-mail. */
  function Exists(db: Db, username: string, email: string, fails: bool): (r: Result<bool>)
    ensures r.Ok? <==> !fails
    ensures r == Ok(false) ==>
      forall id :: id in db.users ==> db.users[id].username != username && db.users[id].email != email
    ensures r == Ok(true) ==>
      exists id :: id in db.users && (db.users[id].username == username || db.users[id].email == email)
  {
    if fails then Err(DbError)
    else Ok(exists id :: id in db.users && (db.users[id].username == username
                                            || db.users[id].email == email))
  }

  /** The fields of a new row as the create request supplies them. */
  datatype NewUser = NewUser(
    username: string,
    email: string,
    password: string,
    firstName: string,
    lastName: string,
    isActive: bool,
    isAdmin: bool)

  /** `Create(user)`: a new row under the next id of the sequence. */
  function Create(db: Db, u: NewUser, fails: bool): (r: Result<Db>)
    ensures r.Ok? <==> !fails
    ensures r.Ok? ==> var id := db.nextId;
      && r.value.users == db.users[id := User(id, u.username, u.email, u.password,
                                              u.firstName, u.lastName, u.isActive, u.isAdmin)]
      && r.value.order == db.order + [id]
      && r.value.nextId > id
  {
    if fails then Err(DbError)
    else
      var id := db.nextId;
      var row := User(id, u.username, u.email, u.password, u.firstName, u.lastName,
                      u.isActive, u.isAdmin);
      Ok(Db(db.users[id := row], db.order + [id], id + 1))
  }

  /** The fields an update may change: first_name, last_name, is_active and
      is_admin only. */
  datatype UserChanges = UserChanges(
    firstName: string,
    lastName: string,
    isActive: bool,
    isAdmin: bool)

  function Apply(u: User, c: UserChanges): (v: User)
    ensures v.id == u.id && v.username == u.username
    ensures v.email == u.email && v.password == u.password
  {
    u.(firstName := c.firstName, lastName := c.lastName,
       isActive := c.isActive, isAdmin := c.isAdmin)
  }

  /** `Update(id, changes)`: an update of a missing row changes nothing. */
  function Update(db: Db, id: int, c: UserChanges, fails: bool): (r: Result<Db>)
    ensures r.Ok? <==> !fails
    ensures r.Ok? && id in db.users ==>
      r.value == db.(users := db.users[id := Apply(db.users[id], c)])
    ensures r.Ok? && id !in db.users ==> r.value == db
  {
    if fails then Err(DbError)
    else if id in db.users then Ok(db.(users := db.users[id := Apply(db.users[id], c)]))
    else Ok(db)
  }

  /** `ids` without `id`, order kept. */
  function Without(ids: seq<int>, id: int): (r: seq<int>)
    ensures forall x :: x in r <==> x in ids && x != id
    ensures Distinct(ids) ==> Distinct(r)
  {
    if ids == [] then []
    else
      var rest := Without(ids[1..], id);
      assert forall x :: x in ids[1..] <==> x in ids && (x != ids[0] || ids[0] in ids[1..]);
      if ids[0] == id then rest
      else
        var r := [ids[0]] + rest;
        assert Distinct(ids) ==> ids[0] !in ids[1..];
        assert forall i :: 1 <= i < |r| ==> r[i] == rest[i - 1];
        r
  }

  /** `Delete(id)`. */
  function Delete(db: Db, id: int, fails: bool): (r: Result<Db>)
    ensures r.Ok? <==> !fails
    ensures r.Ok? ==> r.value.users == db.users - {id} && r.value.nextId == db.nextId
  {
    if fails then Err(DbError)
    else Ok(Db(db.users - {id}, Without(db.order, id), db.nextId))
  }

  /** The rows a page read returns: `limit` rows of the scan starting at
      `offset`; a negative limit means no limit. */
  function Page(db: Table, limit: int, offset: nat): (rows: seq<User>)
    ensures limit >= 0 ==> |rows| <= limit
    ensures |rows| == (if offset >= |db.order| then 0
                       else if limit < 0 || offset + limit > |db.order| then |db.order| - offset
                       else limit)
    ensures forall i :: 0 <= i < |rows| ==>
      offset + i < |db.order| && rows[i] == db.users[db.order[offset + i]]
  {
    if offset >= |db.order| then []
    else
      var end := if limit < 0 || offset + limit > |db.order| then |db.order| else offset + limit;
      seq(end - offset, i requires 0 <= i < end - offset => db.users[db.order[offset + i]])
  }

  /** `All(limit, offset)`. */
  function All(db: Table, limit: int, offset: nat, fails: bool): (r: Result<seq<User>>)
    ensures r.Ok? <==> !fails
    ensures r.Ok? ==> r.value == Page(db, limit, offset)
  {
    if fails then Err(DbError) else Ok(Page(db, limit, offset))
  }

  // ---------------------------------------------------------------- invariants

  /** A create that the existence check let through keeps the table valid. */
  lemma CreatePreservesValid(db: Db, u: NewUser)
    requires Valid(db)
    requires Exists(db, u.username, u.email, false) == Ok(false)
    ensures Valid(Create(db, u, false).value)
  {
    var db' := Create(db, u, false).value;
    var id := db.nextId;
    assert id !in db.order;
    forall i, j | 0 <= i < j < |db'.order| ensures db'.order[i] != db'.order[j] {
      if j == |db.order| { assert db'.order[i] == db.order[i]; }
    }
  }

  /** An update never touches the unique columns, so validity survives it. */
  lemma UpdatePreservesValid(db: Db, id: int, c: UserChanges)
    requires Valid(db)
    ensures Valid(Update(db, id, c, false).value)
  {
  }

  /** Removing a row keeps the table valid. */
  lemma DeletePreservesValid(db: Db, id: int)
    requires Valid(db)
    ensures Valid(Delete(db, id, false).value)
  {
    var db' := Delete(db, id, false).value;
    forall i | 0 <= i < |db'.order| ensures db'.order[i] in db'.users {
      assert db'.order[i] in db'.order;
    }
  }
}

=== FILE: routes.dfy ===
/** `pkg/route`: which middleware guards which handler. Fiber's
    `Group(prefix, mw...)` registers the middleware as a prefix-wide `Use`
    entry and each `route.Post/Get/...` as a handler entry with the prefix
    joined on; a request walks the entries in registration order, running
    every `Use` whose prefix covers its path, until the first handler whose
    method and pattern match. The middleware bodies (`JWTProtected`,
    `IsAdmin`) are not part of this model: each is a gate whose verdict is a
    parameter. Routing follows Fiber v2's defaults: case-insensitive paths,
    a trailing slash ignored, and `Get` registering its handler for HEAD as
    well as GET. */
module Routes {
  import opened Wrappers
  import opened GoStrings

  /** A request method. No route line here is written for HEAD; a HEAD
      request is answered by the GET routes. */
  datatype Method = GET | HEAD | POST | PUT | DELETE

  /** Whether a route registered for `verb` answers a request with method
      `m`: Fiber's `Get` adds the same handlers for HEAD, next to GET. */
  predicate Answers(verb: Method, m: Method)
  {
    verb == m || (verb == GET && m == HEAD)
  }

  datatype Gate = JWTProtected | IsAdmin

  datatype Handler =
    | GetNewAccessToken
    | GetBooks | GetBook | CreateBook | UpdateBook | DeleteBook
    | CreateUser | GetUsers | GetUser | UpdateUser | DeleteUser

  predicate IsUserHandler(h: Handler)
  {
    h.CreateUser? || h.GetUsers? || h.GetUser? || h.UpdateUser? || h.DeleteUser?
  }

  predicate IsBookMutation(h: Handler)
  {
    h.CreateBook? || h.UpdateBook? || h.DeleteBook?
  }

  /** A path pattern, one element per `/`-separated segment; `Param` is a
      `:name` placeholder. The route path "/" adds no segment (Fiber's
      default, non-strict routing ignores a trailing slash). */
  datatype Segment = Lit(text: string) | Param(name: string)
  type Pattern = seq<Segment>

  /** A request path, split at `/`. */
  type Path = seq<string>

  /** Fiber's default routing is case-insensitive: a literal segment is
      compared with the request's segment lower-cased, ASCII letters only
      (`utils.ToLower`). The literals of this application are lower-case. */
  predicate Matches(p: Pattern, path: Path)
  {
    && |p| == |path|
    && forall i :: 0 <= i < |p| ==> if p[i].Lit? then ToLower(path[i]) == p[i].text else path[i] != ""
  }

  predicate UnderPrefix(prefix: Pattern, path: Path)
  {
    |prefix| <= |path| && Matches(prefix, path[..|prefix|])
  }

  datatype Entry =
    | Use(prefix: Pattern, gates: seq<Gate>)
    | Handle(verb: Method, pattern: Pattern, handler: Handler)

  /** One `route.<Method>(path, handler)` line inside a group. A `Get` line
      stands for the HEAD and GET registrations Fiber makes for it, which sit
      side by side and so answer exactly the requests `Answers` admits. */
  datatype RouteDef = RouteDef(verb: Method, path: Pattern, handler: Handler)

  function Handles(prefix: Pattern, defs: seq<RouteDef>): (es: seq<Entry>)
    ensures |es| == |defs|
    ensures forall i :: 0 <= i < |defs| ==>
      es[i] == Handle(defs[i].verb, prefix + defs[i].path, defs[i].handler)
  {
    if defs == [] then []
    else [Handle(defs[0].verb, prefix + defs[0].path, defs[0].handler)] + Handles(prefix, defs[1..])
  }

  /** `app.Group(prefix, gates...)` followed by its route lines. A group
      without middleware registers no `Use` entry. */
  function Group(prefix: Pattern, gates: seq<Gate>, defs: seq<RouteDef>): (es: seq<Entry>)
    ensures |es| == |defs| + (if gates == [] then 0 else 1)
    ensures gates != [] ==> es[0] == Use(prefix, gates)
    ensures forall i :: 0 <= i < |defs| ==>
      es[|es| - |defs| + i] == Handle(defs[i].verb, prefix + defs[i].path, defs[i].handler)
  {
    (if gates == [] then [] else [Use(prefix, gates)]) + Handles(prefix, defs)
  }

  const V1: Pattern := [Lit("api"), Lit("v1")]
  const UsersPrefix: Pattern := V1 + [Lit("users")]
  const BooksPrefix: Pattern := V1 + [Lit("books")]
  const Root: Pattern := []
  const ById: Pattern := [Param("id")]

  const UserDefs: seq<RouteDef> :=
    [ RouteDef(POST, Root, CreateUser),
      RouteDef(GET, Root, GetUsers),
      RouteDef(GET, ById, GetUser),
      RouteDef(PUT, ById, UpdateUser),
      RouteDef(DELETE, ById, DeleteUser) ]

  const BookDefs: seq<RouteDef> :=
    [ RouteDef(POST, Root, CreateBook),
      RouteDef(PUT, ById, UpdateBook),
      RouteDef(DELETE, ById, DeleteBook) ]

  const PublicDefs: seq<RouteDef> :=
    [ RouteDef(POST, [Lit("token"), Lit("new")], GetNewAccessToken),
      RouteDef(GET, [Lit("books")], GetBooks),
      RouteDef(GET, [Lit("books"), Param("id")], GetBook) ]

  const AdminGates: seq<Gate> := [JWTProtected, IsAdmin]
  const AuthGates: seq<Gate> := [JWTProtected]

  /** `PrivateRoutes`: the admin group for users, the authenticated group
      for book changes. */
  function PrivateRoutes(): (es: seq<Entry>)
    ensures |es| == 10
    ensures es[0] == Use(UsersPrefix, AdminGates) && es[6] == Use(BooksPrefix, AuthGates)
    ensures forall i :: 1 <= i < 6 ==>
      es[i].Handle? && IsUserHandler(es[i].handler) && |es[i].pattern| >= 3 && es[i].pattern[..3] == UsersPrefix
    ensures forall i :: 7 <= i < 10 ==>
      es[i].Handle? && IsBookMutation(es[i].handler) && |es[i].pattern| >= 3 && es[i].pattern[..3] == BooksPrefix
  {
    Group(UsersPrefix, AdminGates, UserDefs) + Group(BooksPrefix, AuthGates, BookDefs)
  }

  /** `PublicRoutes`: a bare `/api/v1` group. */
  function PublicRoutes(): (es: seq<Entry>)
    ensures |es| == 3
    ensures forall i :: 0 <= i < 3 ==>
      es[i].Handle? && |es[i].pattern| >= 2 && es[i].pattern[..2] == V1
      && es[i].handler in {GetNewAccessToken, GetBooks, GetBook}
  {
    Group(V1, [], PublicDefs)
  }

  /** The application's entries: public routes registered before private
      ones. */
  function App(): seq<Entry>
  {
    PublicRoutes() + PrivateRoutes()
  }

  /** Where a request ends up: the gates it passes through, in order, and the
      handler that answers it (None: no route, Fiber's 404). */
  datatype Dispatch = Dispatch(gates: seq<Gate>, handler: Option<Handler>)

  /** Whether an entry is a route line that answers this request. */
  predicate Answering(e: Entry, m: Method, path: Path)
  {
    e.Handle? && Answers(e.verb, m) && Matches(e.pattern, path)
  }

  /** Walking the entries from `acc`: the gates gathered so far only grow,
      and the handler found is that of the first route line answering the
      request. */
  function RouteFrom(entries: seq<Entry>, m: Method, path: Path, acc: seq<Gate>): (d: Dispatch)
    ensures |d.gates| >= |acc| && d.gates[..|acc|] == acc
    ensures d.handler.None? <==> forall i :: 0 <= i < |entries| ==> !Answering(entries[i], m, path)
    ensures d.handler.Some? ==> exists i :: (
      && 0 <= i < |entries| && Answering(entries[i], m, path)
      && entries[i].handler == d.handler.value
      && forall j :: 0 <= j < i ==> !Answering(entries[j], m, path))
    decreases |entries|
  {
    if entries == [] then Dispatch(acc, None)
    else
      assert forall i :: 1 <= i < |entries| ==> entries[1..][i - 1] == entries[i];
      match entries[0]
      case Use(prefix, gates) =>
        var acc' := if UnderPrefix(prefix, path) then acc + gates else acc;
        assert acc'[..|acc|] == acc;
        RouteFrom(entries[1..], m, path, acc')
      case Handle(m', pattern, h) =>
        if Answers(m', m) && Matches(pattern, path) then Dispatch(acc, Some(h))
        else RouteFrom(entries[1..], m, path, acc)
  }

  function Route(entries: seq<Entry>, m: Method, path: Path): Dispatch
  {
    RouteFrom(entries, m, path, [])
  }

  /** What the gates decide: the first one that objects answers (with its
      status), otherwise the handler runs. */
  datatype Served = Rejected(gate: Gate, status: int) | Handled(h: Handler) | NoRoute

  function Serve(d: Dispatch, verdict: Gate -> Option<int>): (s: Served)
    ensures s.Handled? <==> d.handler.Some? && forall i :: 0 <= i < |d.gates| ==> verdict(d.gates[i]).None?
    ensures s.Handled? ==> s.h == d.handler.value
    // an objecting gate always answers; only a request that every gate lets
    // through and no handler takes has no route
    ensures s.NoRoute? <==> d.handler.None? && forall i :: 0 <= i < |d.gates| ==> verdict(d.gates[i]).None?
    ensures s.Rejected? ==> exists i :: (
      && 0 <= i < |d.gates| && d.gates[i] == s.gate
      && verdict(s.gate) == Some(s.status)
      && forall j :: 0 <= j < i ==> verdict(d.gates[j]).None?)
    decreases |d.gates|
  {
    if d.gates == [] then
      if d.handler.Some? then Handled(d.handler.value) else NoRoute
    else
      match verdict(d.gates[0])
      case Some(status) => Rejected(d.gates[0], status)
      case None =>
        var s := Serve(Dispatch(d.gates[1..], d.handler), verdict);
        assert forall i :: 1 <= i < |d.gates| ==> d.gates[i] == d.gates[1..][i - 1];
        if s.Rejected? then
          var i :| 0 <= i < |d.gates[1..]| && d.gates[1..][i] == s.gate
                   && verdict(s.gate) == Some(s.status)
                   && forall j :: 0 <= j < i ==> verdict(d.gates[1..][j]).None?;
          assert d.gates[i + 1] == s.gate;
          s
        else s
  }

  // ---------------------------------------------------------------- the policy as a table

  /** One row of the access policy: a request this method answers (a GET
      row also answers HEAD) with a path matching this pattern passes these
      gates, in order, then this handler. */
  datatype Rule = Rule(verb: Method, pattern: Pattern, gates: seq<Gate>, handler: Handler)

  /** The access policy written out row by row. */
  function Policy(): seq<Rule>
  {
    [ Rule(POST, [Lit("api"), Lit("v1"), Lit("token"), Lit("new")], [], GetNewAccessToken),
      Rule(GET, [Lit("api"), Lit("v1"), Lit("books")], [], GetBooks),
      Rule(GET, [Lit("api"), Lit("v1"), Lit("books"), Param("id")], [], GetBook),
      Rule(POST, [Lit("api"), Lit("v1"), Lit("users")], [JWTProtected, IsAdmin], CreateUser),
      Rule(GET, [Lit("api"), Lit("v1"), Lit("users")], [JWTProtected, IsAdmin], GetUsers),
      Rule(GET, [Lit("api"), Lit("v1"), Lit("users"), Param("id")], [JWTProtected, IsAdmin], GetUser),
      Rule(PUT, [Lit("api"), Lit("v1"), Lit("users"), Param("id")], [JWTProtected, IsAdmin], UpdateUser),
      Rule(DELETE, [Lit("api"), Lit("v1"), Lit("users"), Param("id")], [JWTProtected, IsAdmin], DeleteUser),
      Rule(POST, [Lit("api"), Lit("v1"), Lit("books")], [JWTProtected], CreateBook),
      Rule(PUT, [Lit("api"), Lit("v1"), Lit("books"), Param("id")], [JWTProtected], UpdateBook),
      Rule(DELETE, [Lit("api"), Lit("v1"), Lit("books"), Param("id")], [JWTProtected], DeleteBook) ]
  }

  /** The first rule for this request, if any. */
  function Lookup(rules: seq<Rule>, m: Method, path: Path): (r: Option<Rule>)
    ensures r.Some? ==> r.value in rules && Answers(r.value.verb, m) && Matches(r.value.pattern, path)
    ensures r.None? ==> forall i :: 0 <= i < |rules| ==> !(Answers(rules[i].verb, m) && Matches(rules[i].pattern, path))
  {
    if rules == [] then None
    else if Answers(rules[0].verb, m) && Matches(rules[0].pattern, path) then Some(rules[0])
    else
      var r := Lookup(rules[1..], m, path);
      assert forall i :: 1 <= i < |rules| ==> rules[i] == rules[1..][i - 1];
      r
  }

  /** The rules a group contributes. */
  function GroupRules(prefix: Pattern, gates: seq<Gate>, defs: seq<RouteDef>): (rs: seq<Rule>)
    ensures |rs| == |defs|
    ensures forall i :: 0 <= i < |defs| ==>
      rs[i] == Rule(defs[i].verb, prefix + defs[i].path, gates, defs[i].handler)
  {
    if defs == [] then []
    else [Rule(defs[0].verb, prefix + defs[0].path, gates, defs[0].handler)]
         + GroupRules(prefix, gates, defs[1..])
  }

  /** The first route line of a group that answers this request. */
  function FirstDef(prefix: Pattern, defs: seq<RouteDef>, m: Method, path: Path): Option<Handler>
  {
    if defs == [] then None
    else if Answers(defs[0].verb, m) && Matches(prefix + defs[0].path, path) then Some(defs[0].handler)
    else FirstDef(prefix, defs[1..], m, path)
  }

  // ---------------------------------------------------------------- routing lemmas

  /** Walking two entry lists one after the other. */
  lemma {:induction false} RouteConcat(a: seq<Entry>, b: seq<Entry>, m: Method, path: Path,
                                       acc: seq<Gate>)
    ensures RouteFrom(a + b, m, path, acc)
            == (var d := RouteFrom(a, m, path, acc);
                if d.handler.Some? then d else RouteFrom(b, m, path, d.gates))
    decreases |a|
  {
    if a != [] {
      assert (a + b)[1..] == a[1..] + b;
      match a[0]
      case Use(prefix, gates) =>
        RouteConcat(a[1..], b, m, path, if UnderPrefix(prefix, path) then acc + gates else acc);
      case Handle(_, _, _) =>
        RouteConcat(a[1..], b, m, path, acc);
    } else {
      assert a + b == b;
    }
  }

  lemma {:induction false} HandlesRoute(prefix: Pattern, defs: seq<RouteDef>, m: Method,
                                        path: Path, acc: seq<Gate>)
    ensures RouteFrom(Handles(prefix, defs), m, path, acc)
            == Dispatch(acc, FirstDef(prefix, defs, m, path))
    decreases |defs|
  {
    if defs != [] {
      assert Handles(prefix, defs)[1..] == Handles(prefix, defs[1..]);
      HandlesRoute(prefix, defs[1..], m, path, acc);
    }
  }

  lemma PrefixOfMatch(prefix: Pattern, p: Pattern, path: Path)
    requires Matches(prefix + p, path)
    ensures UnderPrefix(prefix, path)
  {
    forall i | 0 <= i < |prefix|
      ensures if prefix[i].Lit? then ToLower(path[..|prefix|][i]) == prefix[i].text
              else path[..|prefix|][i] != ""
    {
      assert (prefix + p)[i] == prefix[i];
    }
  }

  lemma {:induction false} FirstDefUnderPrefix(prefix: Pattern, defs: seq<RouteDef>, m: Method,
                                               path: Path)
    requires FirstDef(prefix, defs, m, path).Some?
    ensures UnderPrefix(prefix, path)
    decreases |defs|
  {
    if Answers(defs[0].verb, m) && Matches(prefix + defs[0].path, path) {
      PrefixOfMatch(prefix, defs[0].path, path);
    } else {
      FirstDefUnderPrefix(prefix, defs[1..], m, path);
    }
  }

  lemma {:induction false} FirstDefNone(prefix: Pattern, defs: seq<RouteDef>, m: Method, path: Path)
    requires forall d :: d in defs ==> !Answers(d.verb, m) || !Matches(prefix + d.path, path)
    ensures FirstDef(prefix, defs, m, path) == None
    decreases |defs|
  {
    if defs != [] {
      assert defs[0] in defs;
      assert forall d :: d in defs[1..] ==> d in defs;
      FirstDefNone(prefix, defs[1..], m, path);
    }
  }

  /** A group answers with the first matching route line, after its
      middleware if the path lies under its prefix. */
  lemma GroupRoute(prefix: Pattern, gates: seq<Gate>, defs: seq<RouteDef>, m: Method,
                   path: Path, acc: seq<Gate>)
    ensures RouteFrom(Group(prefix, gates, defs), m, path, acc)
            == Dispatch(if UnderPrefix(prefix, path) then acc + gates else acc,
                        FirstDef(prefix, defs, m, path))
  {
    var uses: seq<Entry> := if gates == [] then [] else [Use(prefix, gates)];
    RouteConcat(uses, Handles(prefix, defs), m, path, acc);
    var acc' := if UnderPrefix(prefix, path) then acc + gates else acc;
    HandlesRoute(prefix, defs, m, path, acc');
    HandlesRoute(prefix, defs, m, path, acc);
    if gates == [] {
      assert acc + gates == acc;
    } else {
      assert RouteFrom(uses, m, path, acc) == RouteFrom([], m, path, acc');
    }
  }

  /** The first matching route line of a group is the first matching rule
      of that group's rows, and those rows carry the group's gates. */
  lemma {:induction false} FirstDefIsLookup(prefix: Pattern, gates: seq<Gate>,
                                            defs: seq<RouteDef>, m: Method, path: Path)
    ensures var r := Lookup(GroupRules(prefix, gates, defs), m, path);
      && (FirstDef(prefix, defs, m, path).Some? <==> r.Some?)
      && (r.Some? ==> FirstDef(prefix, defs, m, path) == Some(r.value.handler)
                      && r.value.gates == gates)
    decreases |defs|
  {
    if defs != [] {
      var rs := GroupRules(prefix, gates, defs);
      assert rs[1..] == GroupRules(prefix, gates, defs[1..]);
      FirstDefIsLookup(prefix, gates, defs[1..], m, path);
    }
  }

  lemma {:induction false} LookupConcat(a: seq<Rule>, b: seq<Rule>, m: Method, path: Path)
    ensures Lookup(a + b, m, path)
            == (if Lookup(a, m, path).Some? then Lookup(a, m, path) else Lookup(b, m, path))
    decreases |a|
  {
    if a == [] {
      assert a + b == b;
    } else {
      assert (a + b)[1..] == a[1..] + b;
      LookupConcat(a[1..], b, m, path);
    }
  }

  lemma PolicyIsGroups()
    ensures Policy() == GroupRules(V1, [], PublicDefs)
                       + GroupRules(UsersPrefix, AdminGates, UserDefs)
                       + GroupRules(BooksPrefix, AuthGates, BookDefs)
  {
    var all := GroupRules(V1, [], PublicDefs)
               + GroupRules(UsersPrefix, AdminGates, UserDefs)
               + GroupRules(BooksPrefix, AuthGates, BookDefs);
    assert |all| == |Policy()| == 11;
    forall i | 0 <= i < 11 ensures all[i] == Policy()[i] {
      if i < 3 {
        assert all[i] == GroupRules(V1, [], PublicDefs)[i];
      } else if i < 8 {
        assert all[i] == GroupRules(UsersPrefix, AdminGates, UserDefs)[i - 3];
      } else {
        assert all[i] == GroupRules(BooksPrefix, AuthGates, BookDefs)[i - 8];
      }
    }
  }

  /** How the registered entries route a request, group by group: the
      public group first, then the users group, then the books group; the
      middleware of every group whose prefix covers the path accumulates. */
  lemma AppRoute(m: Method, path: Path)
    ensures Route(App(), m, path)
      == (var h1 := FirstDef(V1, PublicDefs, m, path);
          var h2 := FirstDef(UsersPrefix, UserDefs, m, path);
          var h3 := FirstDef(BooksPrefix, BookDefs, m, path);
          var g2 := if UnderPrefix(UsersPrefix, path) then AdminGates else [];
          var g3 := if UnderPrefix(BooksPrefix, path) then g2 + AuthGates else g2;
          if h1.Some? then Dispatch([], h1)
          else if h2.Some? then Dispatch(g2, h2)
          else Dispatch(g3, h3))
  {
    var users := Group(UsersPrefix, AdminGates, UserDefs);
    var books := Group(BooksPrefix, AuthGates, BookDefs);
    RouteConcat(PublicRoutes(), users + books, m, path, []);
    RouteConcat(users, books, m, path, []);
    GroupRoute(V1, [], PublicDefs, m, path, []);
    GroupRoute(UsersPrefix, AdminGates, UserDefs, m, path, []);
    var d2 := RouteFrom(users, m, path, []);
    GroupRoute(BooksPrefix, AuthGates, BookDefs, m, path, d2.gates);
    assert [] + AdminGates == AdminGates;
  }

  /** The table's first matching row, group by group. */
  lemma PolicyLookup(m: Method, path: Path)
    ensures var r := Lookup(Policy(), m, path);
      var h1 := FirstDef(V1, PublicDefs, m, path);
      var h2 := FirstDef(UsersPrefix, UserDefs, m, path);
      var h3 := FirstDef(BooksPrefix, BookDefs, m, path);
      && (r.Some? <==> h1.Some? || h2.Some? || h3.Some?)
      && (h1.Some? ==> r.value.handler == h1.value && r.value.gates == [])
      && (h1.None? && h2.Some? ==> r.value.handler == h2.value && r.value.gates == AdminGates)
      && (h1.None? && h2.None? && h3.Some? ==>
            r.value.handler == h3.value && r.value.gates == AuthGates)
  {
    FirstDefIsLookup(V1, [], PublicDefs, m, path);
    FirstDefIsLookup(UsersPrefix, AdminGates, UserDefs, m, path);
    FirstDefIsLookup(BooksPrefix, AuthGates, BookDefs, m, path);
    var pub := GroupRules(V1, [], PublicDefs);
    var usr := GroupRules(UsersPrefix, AdminGates, UserDefs);
    var bks := GroupRules(BooksPrefix, AuthGates, BookDefs);
    PolicyIsGroups();
    LookupConcat(pub, usr, m, path);
    LookupConcat(pub + usr, bks, m, path);
  }

  /** The registered entries route every request exactly as the policy
      table says: the same handler, behind the same gates in the same order. */
  lemma AppFollowsPolicy(m: Method, path: Path)
    ensures Route(App(), m, path).handler.Some? <==> Lookup(Policy(), m, path).Some?
    ensures Lookup(Policy(), m, path).Some? ==>
      Route(App(), m, path)
      == Dispatch(Lookup(Policy(), m, path).value.gates, Some(Lookup(Policy(), m, path).value.handler))
  {
    AppRoute(m, path);
    PolicyLookup(m, path);
    if FirstDef(UsersPrefix, UserDefs, m, path).Some? {
      FirstDefUnderPrefix(UsersPrefix, UserDefs, m, path);
    }
    if FirstDef(BooksPrefix, BookDefs, m, path).Some? {
      FirstDefUnderPrefix(BooksPrefix, BookDefs, m, path);
      BooksNotUsers(path);
      assert [] + AuthGates == AuthGates;
    }
  }

  /** The books prefix and the users prefix never cover the same path. */
  lemma BooksNotUsers(path: Path)
    requires UnderPrefix(BooksPrefix, path)
    ensures !UnderPrefix(UsersPrefix, path)
  {
    assert ToLower(path[..3][2]) == "books";
  }

  // ---------------------------------------------------------------- policy properties

  /** Two patterns some path matches both of. */
  predicate Compatible(p: Pattern, q: Pattern)
  {
    && |p| == |q|
    && forall k :: 0 <= k < |p| ==>
         if p[k].Lit? && q[k].Lit? then p[k].text == q[k].text
         else if p[k].Lit? then p[k].text != ""
         else if q[k].Lit? then q[k].text != ""
         else true
  }

  lemma MatchBothCompatible(p: Pattern, q: Pattern, path: Path)
    requires Matches(p, path) && Matches(q, path)
    ensures Compatible(p, q)
  {
  }

  /** No table row is written for HEAD, so two rows answering the same
      request method were written for the same method. */
  lemma AnswersSameVerb(a: Method, b: Method, m: Method)
    requires a != HEAD && b != HEAD && Answers(a, m) && Answers(b, m)
    ensures a == b
  {
  }

  /** No request matches two rows of the table: each (method, path) has at
      most one handler, whatever the order of the rows. */
  lemma PolicyUnambiguous()
    ensures forall i, j :: 0 <= i < j < |Policy()| && Policy()[i].verb == Policy()[j].verb
                           ==> !Compatible(Policy()[i].pattern, Policy()[j].pattern)
    ensures forall i :: 0 <= i < |Policy()| ==> Policy()[i].verb != HEAD
  {
    var t := Policy();
    forall i, j | 0 <= i < j < |t| && t[i].verb == t[j].verb
      ensures !Compatible(t[i].pattern, t[j].pattern)
    {
      if |t[i].pattern| == |t[j].pattern| {
        assert t[i].pattern[2] != t[j].pattern[2];
      }
    }
  }

  lemma {:induction false} LookupFindsOnlyMatch(rules: seq<Rule>, i: int, m: Method, path: Path)
    requires 0 <= i < |rules| && Answers(rules[i].verb, m) && Matches(rules[i].pattern, path)
    requires forall j :: 0 <= j < i && Answers(rules[j].verb, m)
                         ==> !Compatible(rules[j].pattern, rules[i].pattern)
    ensures Lookup(rules, m, path) == Some(rules[i])
    decreases i
  {
    if i > 0 {
      if Answers(rules[0].verb, m) && Matches(rules[0].pattern, path) {
        MatchBothCompatible(rules[0].pattern, rules[i].pattern, path);
      }
      assert rules[1..][i - 1] == rules[i];
      LookupFindsOnlyMatch(rules[1..], i - 1, m, path);
    }
  }

  /** Every row of the table is what the application does: a request its
      method answers, on a path matching its pattern, passes exactly its
      gates and reaches its handler (PUT /api/v1/users/:id reaches
      UpdateUser behind JWTProtected then IsAdmin, HEAD /api/v1/books
      reaches GetBooks with no gate, and so on). */
  lemma EveryRuleIsRouted(i: int, m: Method, path: Path)
    requires 0 <= i < |Policy()| && Answers(Policy()[i].verb, m) && Matches(Policy()[i].pattern, path)
    ensures Route(App(), m, path) == Dispatch(Policy()[i].gates, Some(Policy()[i].handler))
  {
    var t := Policy();
    PolicyUnambiguous();
    forall j | 0 <= j < i && Answers(t[j].verb, m) ensures !Compatible(t[j].pattern, t[i].pattern) {
      AnswersSameVerb(t[j].verb, t[i].verb, m);
    }
    LookupFindsOnlyMatch(t, i, m, path);
    AppFollowsPolicy(m, path);
  }

  /** What a row of the table says about gates and prefixes. */
  predicate RuleShape(r: Rule)
  {
    && (IsUserHandler(r.handler) ==> r.gates == AdminGates)
    && (IsBookMutation(r.handler) ==> r.gates == AuthGates)
    && (r.gates == [] ==> r.handler in {GetNewAccessToken, GetBooks, GetBook})
    && (r.gates == [] ==> r.verb == GET || r.handler == GetNewAccessToken)
    && |r.pattern| >= 2 && r.pattern[0] == Lit("api") && r.pattern[1] == Lit("v1")
  }

  /** What every row of the table says about gates. */
  lemma RuleFacts(r: Rule)
    requires r in Policy()
    ensures IsUserHandler(r.handler) ==> r.gates == AdminGates
    ensures IsBookMutation(r.handler) ==> r.gates == AuthGates
    ensures r.gates == [] ==> r.handler in {GetNewAccessToken, GetBooks, GetBook}
    ensures r.gates == [] ==> r.verb == GET || r.handler == GetNewAccessToken
    ensures |r.pattern| >= 2 && r.pattern[..2] == V1
  {
    var t := Policy();
    var i :| 0 <= i < |t| && t[i] == r;
    if i < 3 {
      PublicRowsShape();
    } else if i < 8 {
      UserRowsShape();
    } else {
      BookRowsShape();
    }
    assert RuleShape(r);
    assert r.pattern[..2] == [r.pattern[0], r.pattern[1]];
  }

  lemma PublicRowsShape()
    ensures forall i :: 0 <= i < 3 ==> RuleShape(Policy()[i])
  {
    var t := Policy();
    assert RuleShape(t[0]) && RuleShape(t[1]) && RuleShape(t[2]);
  }

  lemma UserRowsShape()
    ensures forall i :: 3 <= i < 8 ==> RuleShape(Policy()[i])
  {
    var t := Policy();
    assert RuleShape(t[3]) && RuleShape(t[4]) && RuleShape(t[5]) && RuleShape(t[6]);
    assert RuleShape(t[7]);
  }

  lemma BookRowsShape()
    ensures forall i :: 8 <= i < 11 ==> RuleShape(Policy()[i])
  {
    var t := Policy();
    assert RuleShape(t[8]) && RuleShape(t[9]) && RuleShape(t[10]);
  }

  /** Whatever the request, reaching a user-management handler means having
      been routed through JWTProtected and then IsAdmin, and nothing else. */
  lemma UserHandlersAreAdminGated(m: Method, path: Path)
    requires Route(App(), m, path).handler.Some?
    requires IsUserHandler(Route(App(), m, path).handler.value)
    ensures Route(App(), m, path).gates == [JWTProtected, IsAdmin]
  {
    AppFollowsPolicy(m, path);
    RuleFacts(Lookup(Policy(), m, path).value);
  }

  /** Book changes are behind JWTProtected alone, with no admin check. */
  lemma BookMutationsNeedOnlyAuthentication(m: Method, path: Path)
    requires Route(App(), m, path).handler.Some?
    requires IsBookMutation(Route(App(), m, path).handler.value)
    ensures Route(App(), m, path).gates == [JWTProtected]
  {
    AppFollowsPolicy(m, path);
    RuleFacts(Lookup(Policy(), m, path).value);
  }

  /** A request that reaches a handler with no gate at all is a GET, a HEAD
      or the token endpoint, always under /api/v1, and its handler is the
      token endpoint or one of the two book reads. */
  lemma UngatedRequests(m: Method, path: Path)
    requires Route(App(), m, path).handler.Some? && Route(App(), m, path).gates == []
    ensures m == GET || m == HEAD || Route(App(), m, path).handler == Some(GetNewAccessToken)
    ensures Route(App(), m, path).handler.value in {GetNewAccessToken, GetBooks, GetBook}
    ensures UnderPrefix(V1, path)
  {
    AppFollowsPolicy(m, path);
    var r := Lookup(Policy(), m, path).value;
    RuleFacts(r);
    RuleUnderV1(r, path);
  }

  /** A path a table row matches lies under /api/v1. */
  lemma RuleUnderV1(r: Rule, path: Path)
    requires r in Policy() && Matches(r.pattern, path)
    ensures UnderPrefix(V1, path)
  {
    RuleFacts(r);
    assert r.pattern == V1 + r.pattern[2..];
    PrefixOfMatch(V1, r.pattern[2..], path);
  }

  /** The same book path is open to GET and HEAD and guarded for changes. */
  lemma BooksPolicyDependsOnMethod(id: string)
    requires id != ""
    ensures Route(App(), GET, ["api", "v1", "books"]) == Dispatch([], Some(GetBooks))
    ensures Route(App(), HEAD, ["api", "v1", "books"]) == Dispatch([], Some(GetBooks))
    ensures Route(App(), POST, ["api", "v1", "books"]) == Dispatch([JWTProtected], Some(CreateBook))
    ensures Route(App(), GET, ["api", "v1", "books", id]) == Dispatch([], Some(GetBook))
    ensures Route(App(), HEAD, ["api", "v1", "books", id]) == Dispatch([], Some(GetBook))
    ensures Route(App(), PUT, ["api", "v1", "books", id]) == Dispatch([JWTProtected], Some(UpdateBook))
    ensures Route(App(), DELETE, ["api", "v1", "books", id]) == Dispatch([JWTProtected], Some(DeleteBook))
    ensures Route(App(), POST, ["api", "v1", "token", "new"]) == Dispatch([], Some(GetNewAccessToken))
  {
    BookPathsMatch(id);
    EveryRuleIsRouted(1, GET, ["api", "v1", "books"]);
    EveryRuleIsRouted(1, HEAD, ["api", "v1", "books"]);
    EveryRuleIsRouted(8, POST, ["api", "v1", "books"]);
    EveryRuleIsRouted(2, GET, ["api", "v1", "books", id]);
    EveryRuleIsRouted(2, HEAD, ["api", "v1", "books", id]);
    EveryRuleIsRouted(9, PUT, ["api", "v1", "books", id]);
    EveryRuleIsRouted(10, DELETE, ["api", "v1", "books", id]);
    EveryRuleIsRouted(0, POST, ["api", "v1", "token", "new"]);
  }

  /** The lower-case segments used in the concrete examples read as themselves. */
  lemma LowerLiterals()
    ensures ToLower("api") == "api" && ToLower("v1") == "v1"
    ensures ToLower("books") == "books" && ToLower("users") == "users"
    ensures ToLower("token") == "token" && ToLower("new") == "new"
  {
  }

  /** Which rows the concrete book and token paths match. */
  lemma BookPathsMatch(id: string)
    requires id != ""
    ensures Matches(Policy()[1].pattern, ["api", "v1", "books"])
    ensures Matches(Policy()[8].pattern, ["api", "v1", "books"])
    ensures Matches(Policy()[2].pattern, ["api", "v1", "books", id])
    ensures Matches(Policy()[9].pattern, ["api", "v1", "books", id])
    ensures Matches(Policy()[10].pattern, ["api", "v1", "books", id])
    ensures Matches(Policy()[0].pattern, ["api", "v1", "token", "new"])
  {
    LowerLiterals();
  }

  /** Serving a user-management request runs the handler only when both
      gates let it through, and a failed authentication answers before the
      admin check is consulted. */
  lemma UserHandlersNeedBothGates(m: Method, path: Path, verdict: Gate -> Option<int>)
    requires Route(App(), m, path).handler.Some?
    requires IsUserHandler(Route(App(), m, path).handler.value)
    ensures Serve(Route(App(), m, path), verdict).Handled? ==>
      verdict(JWTProtected).None? && verdict(IsAdmin).None?
    ensures verdict(JWTProtected).Some? ==>
      Serve(Route(App(), m, path), verdict) == Rejected(JWTProtected, verdict(JWTProtected).value)
  {
    UserHandlersAreAdminGated(m, path);
  }

  /** The public group must be registered first: with the private routes
      registered before it, the books group's JWTProtected also guards the
      public book listing. */
  lemma RegistrationOrderMatters()
    ensures Route(PrivateRoutes() + PublicRoutes(), GET, ["api", "v1", "books"])
            == Dispatch([JWTProtected], Some(GetBooks))
  {
    var path: Path := ["api", "v1", "books"];
    var users := Group(UsersPrefix, AdminGates, UserDefs);
    var books := Group(BooksPrefix, AuthGates, BookDefs);
    assert PrivateRoutes() + PublicRoutes() == users + (books + PublicRoutes());
    RouteConcat(users, books + PublicRoutes(), GET, path, []);
    RouteConcat(books, PublicRoutes(), GET, path, []);
    GroupRoute(UsersPrefix, AdminGates, UserDefs, GET, path, []);
    GroupRoute(BooksPrefix, AuthGates, BookDefs, GET, path, []);
    GroupRoute(V1, [], PublicDefs, GET, path, [JWTProtected]);
    BookListingPrefixes();
    BookListingDefs();
  }

  /** /api/v1/books lies under the books prefix and not under the users one. */
  lemma BookListingPrefixes()
    ensures !UnderPrefix(UsersPrefix, ["api", "v1", "books"])
    ensures UnderPrefix(BooksPrefix, ["api", "v1", "books"])
  {
    var path: Path := ["api", "v1", "books"];
    LowerLiterals();
    assert ToLower(path[..3][2]) == "books";
    assert path[..3] == path;
  }

  /** Of the three groups, only the public one has a GET line for /api/v1/books. */
  lemma BookListingDefs()
    ensures FirstDef(UsersPrefix, UserDefs, GET, ["api", "v1", "books"]) == None
    ensures FirstDef(BooksPrefix, BookDefs, GET, ["api", "v1", "books"]) == None
    ensures FirstDef(V1, PublicDefs, GET, ["api", "v1", "books"]) == Some(GetBooks)
  {
    NoUsersLineForBookListing();
    FirstDefNone(BooksPrefix, BookDefs, GET, ["api", "v1", "books"]);
    PublicLineForBookListing();
  }

  lemma NoUsersLineForBookListing()
    ensures FirstDef(UsersPrefix, UserDefs, GET, ["api", "v1", "books"]) == None
  {
    var path: Path := ["api", "v1", "books"];
    LowerLiterals();
    forall d | d in UserDefs ensures !Matches(UsersPrefix + d.path, path) {
      assert (UsersPrefix + d.path)[2] == Lit("users");
    }
    FirstDefNone(UsersPrefix, UserDefs, GET, path);
  }

  lemma PublicLineForBookListing()
    ensures FirstDef(V1, PublicDefs, GET, ["api", "v1", "books"]) == Some(GetBooks)
  {
    var path: Path := ["api", "v1", "books"];
    LowerLiterals();
    assert PublicDefs[1..][0] == RouteDef(GET, [Lit("books")], GetBooks);
    assert Matches(V1 + [Lit("books")], path);
  }

  // ---------------------------------------------------------------- case-insensitive routing

  /** The request path with every segment lower-cased. */
  function LowerPath(path: Path): (q: Path)
    ensures |q| == |path|
    ensures forall i :: 0 <= i < |path| ==> q[i] == ToLower(path[i])
  {
    if path == [] then [] else [ToLower(path[0])] + LowerPath(path[1..])
  }

  lemma MatchesIgnoresCase(p: Pattern, path: Path)
    ensures Matches(p, path) <==> Matches(p, LowerPath(path))
  {
    var q := LowerPath(path);
    forall i | 0 <= i < |path| ensures ToLower(q[i]) == ToLower(path[i]) && (q[i] == "" <==> path[i] == "") {
      ToLowerIdempotent(path[i]);
    }
  }

  lemma UnderPrefixIgnoresCase(prefix: Pattern, path: Path)
    ensures UnderPrefix(prefix, path) <==> UnderPrefix(prefix, LowerPath(path))
  {
    if |prefix| <= |path| {
      assert LowerPath(path)[..|prefix|] == LowerPath(path[..|prefix|]);
      MatchesIgnoresCase(prefix, path[..|prefix|]);
    }
  }

  /** Walking the entries gives the same answer for a path and for its
      lower-cased form. */
  lemma {:induction false} RouteFromIgnoresCase(entries: seq<Entry>, m: Method, path: Path,
                                                acc: seq<Gate>)
    ensures RouteFrom(entries, m, path, acc) == RouteFrom(entries, m, LowerPath(path), acc)
    decreases |entries|
  {
    if entries != [] {
      match entries[0]
      case Use(prefix, gates) =>
        UnderPrefixIgnoresCase(prefix, path);
        RouteFromIgnoresCase(entries[1..], m, path, if UnderPrefix(prefix, path) then acc + gates else acc);
      case Handle(_, pattern, _) =>
        MatchesIgnoresCase(pattern, path);
        RouteFromIgnoresCase(entries[1..], m, path, acc);
    }
  }

  /** The application routes a request exactly as it routes the same path
      in lower case: /API/V1/Users is routed like /api/v1/users. */
  lemma RoutingIgnoresCase(m: Method, path: Path)
    ensures Route(App(), m, path) == Route(App(), m, LowerPath(path))
  {
    RouteFromIgnoresCase(App(), m, path, []);
  }
}

=== FILE: users.dfy ===
/** `app/controller/user.go`: the user-management handlers, each a fixed
    ladder of checks ending in one status code. Path ids arrive as the raw
    `:id` text, request bodies as the outcome of parsing them, and the
    validator as a parameter that yields its error report, if any. */
module Users {
  import opened Wrappers
  import opened GoInt
  import opened Repo
  import opened Api
  import Auth

  const UsersNotFound: string := "users were not found"
  const UserNotFound: string := "user were not found"
  const UserExists: string := "user with this username or email already exists"

  /** Go's `uint(x)` of an int64: the same bits read as unsigned. */
  function ToUint64(x: Int64): (u: nat)
    ensures u < TwoTo64
    ensures x >= 0 ==> u == x
    ensures x < 0 ==> u == x + TwoTo64
  {
    assert InInt64(x);
    if x < 0 then x + TwoTo64 else x
  }

  /** The offset `GetUsers` asks for: `uint(pageSize*(pageNo-1))`. */
  function PageOffset(pageNo: Int64, pageSize: Int64): (offset: nat)
    ensures pageNo >= 1 && pageSize >= 0 && InInt64(pageSize * (pageNo - 1))
            ==> offset == pageSize * (pageNo - 1)
  {
    assert InInt64(pageNo) && InInt64(pageSize);
    var previous := Wrap64(pageNo - 1);
    var product := Wrap64(pageSize * previous);
    assert pageNo >= 1 ==> InInt64(pageNo - 1) && previous == pageNo - 1;
    assert pageNo >= 1 && pageSize >= 0 ==> pageSize * previous >= 0;
    ToUint64(product)
  }

  /** `GetUsers`. `pageNo` and `pageSize` are what `GetPagination` read from
      the query; it yields a page number of at least 1. */
  function GetUsers(pageNo: Int64, pageSize: Int64, db: Table, faults: set<nat>): (o: Outcome)
    requires pageNo >= 1
    ensures o.db == db
    ensures o.calls == [AllCall(pageSize, PageOffset(pageNo, pageSize))]
    ensures o.reply.status == StatusNotFound <==> 0 in faults
    ensures o.reply.status == StatusNotFound ==> o.reply.payload == Message(UsersNotFound)
    ensures o.reply.status != StatusNotFound ==>
      && o.reply.status == StatusOK
      && o.reply.payload.UserPage?
      && o.reply.payload.page == pageNo
      && o.reply.payload.pageSize == pageSize
      && o.reply.payload.count == |o.reply.payload.users|
      && (pageSize >= 0 ==> o.reply.payload.count <= pageSize)
      && var offset := PageOffset(pageNo, pageSize);
         forall i :: 0 <= i < |o.reply.payload.users| ==>
           offset + i < |db.order| && o.reply.payload.users[i] == db.users[db.order[offset + i]]
    // the page is the store's whole answer
    ensures o.reply.status == StatusOK ==>
      o.reply.payload.users == Page(db, pageSize, PageOffset(pageNo, pageSize))
  {
    var offset := PageOffset(pageNo, pageSize);
    var calls := [AllCall(pageSize, offset)];
    match All(db, pageSize, offset, 0 in faults)
    case Err(_) => Outcome(Reply(StatusNotFound, Message(UsersNotFound)), db, calls)
    case Ok(users) =>
      Outcome(Reply(StatusOK, UserPage(pageNo, pageSize, |users|, users)), db, calls)
  }

  /** `GetUser`. */
  function GetUser(idParam: string, db: Table, faults: set<nat>): (o: Outcome)
    ensures o.db == db
    // an id that is not a 32-bit decimal is refused before the store is asked
    ensures ParseInt32(idParam).NumError? <==> o.reply.status == StatusBadRequest
    ensures ParseInt32(idParam).NumError? ==>
      o.calls == [] && o.reply.payload == BadId(idParam)
    ensures ParseInt32(idParam).Parsed? ==> o.calls == [GetCall(ParseInt32(idParam).n)]
    ensures o.reply.status == StatusOK <==>
      ParseInt32(idParam).Parsed? && ParseInt32(idParam).n in db.users && 0 !in faults
    ensures o.reply.status == StatusOK ==>
      o.reply.payload == OneUser(db.users[ParseInt32(idParam).n])
    ensures o.reply.status in {StatusOK, StatusBadRequest, StatusNotFound}
  {
    match ParseInt32(idParam)
    case NumError(s) => Outcome(Reply(StatusBadRequest, BadId(s)), db, [])
    case Parsed(id) =>
      var calls := [GetCall(id)];
      match Get(db, id, 0 in faults)
      case Err(_) => Outcome(Reply(StatusNotFound, Message(UserNotFound)), db, calls)
      case Ok(user) => Outcome(Reply(StatusOK, OneUser(user)), db, calls)
  }

  /** The ladder `CreateUser` runs, with the hashing step as a parameter so
      that the code as written and its corrected form share everything else.
      `strictHash` makes a hashing error answer 500 instead of storing "". */
  function CreateUserWith(body: Result<NewUser>, validate: NewUser -> Option<string>,
                          hasher: string -> Result<string>, strictHash: bool,
                          db: Table, faults: set<nat>): (o: Outcome)
    // parse, then validation, both 400 and before the store is asked
    ensures body.Err? ==> o.reply == Reply(StatusBadRequest, Message(body.msg)) && o.calls == []
    ensures body.Ok? && validate(body.value).Some? ==>
      o.reply == Reply(StatusBadRequest, InvalidInput(validate(body.value).value))
      && o.calls == []
    ensures o.reply.status == StatusBadRequest <==> body.Err? || validate(body.value).Some?
    // then the existence check, which leaves nothing created when it objects
    ensures body.Ok? && validate(body.value).None? ==>
      |o.calls| >= 1 && o.calls[0] == ExistsCall(body.value.username, body.value.email)
    ensures o.reply.status == StatusConflict <==>
      && body.Ok? && validate(body.value).None?
      && Exists(db, body.value.username, body.value.email, 0 in faults) == Ok(true)
    ensures o.reply.status in {StatusBadRequest, StatusConflict} ==> o.db == db
    // a row is written only by the `Create` call, the third call, and that
    // row is the only change
    ensures o.db != db ==>
      && body.Ok? && |o.calls| >= 3 && o.calls[2].CreateCall?
      && Create(db, o.calls[2].user, false) == Ok(o.db)
      && db.nextId in o.db.users
    // the row carries the submitted fields, the password replaced by the
    // hasher's output ("" when it failed)
    ensures o.db != db ==>
      && o.calls[2].user == body.value.(password := o.calls[2].user.password)
      && o.calls[2].user.password == Auth.GeneratePasswordHash(hasher, body.value.password).0
    ensures strictHash && o.db != db ==> hasher(body.value.password).Ok?
    ensures o.reply.status == StatusOK ==>
      o.db != db && o.reply.payload == OneUser(o.db.users[db.nextId])
    ensures o.reply.status == StatusInternalServerError ==>
      || 0 in faults || 2 in faults || 3 in faults
      || (strictHash && hasher(body.value.password).Err?)
    // a failing existence check is 500, with nothing created
    ensures body.Ok? && validate(body.value).None?
            && Exists(db, body.value.username, body.value.email, 0 in faults).Err? ==>
      o.reply.status == StatusInternalServerError && o.db == db && |o.calls| == 1
    // a failing `Create` leaves the table as it was
    ensures o.db != db ==> 2 !in faults
    // once `Create` succeeds its row stays, even when the re-read after it fails
    ensures body.Ok? && validate(body.value).None?
            && Exists(db, body.value.username, body.value.email, 0 in faults) == Ok(false)
            && (!strictHash || hasher(body.value.password).Ok?) && 2 !in faults ==>
      o.db == Create(db, body.value.(password := Auth.GeneratePasswordHash(hasher, body.value.password).0),
                     false).value
    // a request that passes every check, with no database failure, creates
    // its row and gets 200
    ensures o.reply.status == StatusOK <==>
      && body.Ok? && validate(body.value).None?
      && Exists(db, body.value.username, body.value.email, 0 in faults) == Ok(false)
      && (!strictHash || hasher(body.value.password).Ok?)
      && 2 !in faults && 3 !in faults
  {
    match body
    case Err(e) => Outcome(Reply(StatusBadRequest, Message(e)), db, [])
    case Ok(user) =>
      match validate(user)
      case Some(errs) => Outcome(Reply(StatusBadRequest, InvalidInput(errs)), db, [])
      case None =>
        var calls := [ExistsCall(user.username, user.email)];
        match Exists(db, user.username, user.email, 0 in faults)
        case Err(e) => Outcome(Reply(StatusInternalServerError, Message(e)), db, calls)
        case Ok(taken) =>
          if taken then
            Outcome(Reply(StatusConflict, Message(UserExists)), db, calls)
          else
            var calls := calls + [HashPasswordCall];
            var (hash, hashErr) := Auth.GeneratePasswordHash(hasher, user.password);
            if strictHash && hashErr.Some? then
              Outcome(Reply(StatusInternalServerError, Message(hashErr.value)), db, calls)
            else
              var row := user.(password := hash);
              var calls := calls + [CreateCall(row)];
              match Create(db, row, 2 in faults)
              case Err(e) => Outcome(Reply(StatusInternalServerError, Message(e)), db, calls)
              case Ok(created) =>
                CreatedRowIsFoundByName(db, row);
                var db': Table := created;
                var calls := calls + [GetByUsernameCall(row.username)];
                match GetByUsername(db', row.username, 3 in faults)
                case Err(e) => Outcome(Reply(StatusInternalServerError, Message(e)), db', calls)
                case Ok(dbUser) => Outcome(Reply(StatusOK, OneUser(dbUser)), db', calls)
  }

  /** After a create the existence check let through, the new row is the one
      row with its username. */
  lemma CreatedRowIsFoundByName(db: Table, row: NewUser)
    requires Exists(db, row.username, row.email, false) == Ok(false)
    ensures Valid(Create(db, row, false).value)
    ensures GetByUsername(Create(db, row, false).value, row.username, false)
            == Ok(Create(db, row, false).value.users[db.nextId])
  {
    CreatePreservesValid(db, row);
    var db' := Create(db, row, false).value;
    var r := GetByUsername(db', row.username, false);
    assert db'.users[db.nextId].username == row.username;
    assert r.Ok?;
  }

  /** `CreateUser` as written: a hashing error is discarded and the row is
      stored with an empty password. */
  function CreateUser(body: Result<NewUser>, validate: NewUser -> Option<string>,
                      hasher: string -> Result<string>, db: Table, faults: set<nat>): (o: Outcome)
    ensures o.reply.status in {StatusOK, StatusBadRequest, StatusConflict, StatusInternalServerError}
    ensures o.reply.status == StatusInternalServerError ==>
      0 in faults || 2 in faults || 3 in faults
  {
    CreateUserWith(body, validate, hasher, false, db, faults)
  }

  /** `CreateUser` with the hashing error answered as a server error. */
  function CreateUserChecked(body: Result<NewUser>, validate: NewUser -> Option<string>,
                             hasher: string -> Result<string>, db: Table, faults: set<nat>)
    : (o: Outcome)
    ensures o.db != db ==>
      && body.Ok? && hasher(body.value.password).Ok?
      && db.nextId in o.db.users
      && o.db.users[db.nextId].password == hasher(body.value.password).value
  {
    CreateUserWith(body, validate, hasher, true, db, faults)
  }

  /** `UpdateUser`. */
  function UpdateUser(idParam: string, body: Result<UserChanges>,
                      validate: UserChanges -> Option<string>,
                      db: Table, faults: set<nat>): (o: Outcome)
    ensures ParseInt32(idParam).NumError? ==>
      o.reply == Reply(StatusBadRequest, BadId(idParam)) && o.calls == []
    // existence is checked before the body is even parsed
    ensures ParseInt32(idParam).Parsed? ==>
      |o.calls| >= 1 && o.calls[0] == GetCall(ParseInt32(idParam).n)
    ensures o.reply.status == StatusNotFound <==>
      ParseInt32(idParam).Parsed? && Get(db, ParseInt32(idParam).n, 0 in faults).Err?
    ensures o.reply.status in {StatusBadRequest, StatusNotFound} ==> o.db == db
    // the only change is the update of the addressed row, in the four fields
    ensures o.db != db ==>
      && ParseInt32(idParam).Parsed? && body.Ok?
      && var id := ParseInt32(idParam).n;
         id in db.users && o.db == db.(users := db.users[id := Apply(db.users[id], body.value)])
    // the answer is the row as re-read after the update
    ensures o.reply.status == StatusOK ==>
      && ParseInt32(idParam).Parsed? && body.Ok? && validate(body.value).None?
      && var id := ParseInt32(idParam).n;
         id in db.users && o.reply.payload == OneUser(Apply(db.users[id], body.value))
         && o.db.users[id] == Apply(db.users[id], body.value)
    ensures o.reply.status == StatusInternalServerError ==> 1 in faults || 2 in faults
    // once the row is found: the body, then validation, both 400 and with
    // the table untouched
    ensures ParseInt32(idParam).Parsed? && Get(db, ParseInt32(idParam).n, 0 in faults).Ok?
            && body.Err? ==>
      && o.reply == Reply(StatusBadRequest, Message(body.msg))
      && o.db == db && o.calls == [GetCall(ParseInt32(idParam).n)]
    ensures ParseInt32(idParam).Parsed? && Get(db, ParseInt32(idParam).n, 0 in faults).Ok?
            && body.Ok? && validate(body.value).Some? ==>
      && o.reply == Reply(StatusBadRequest, InvalidInput(validate(body.value).value))
      && o.db == db && o.calls == [GetCall(ParseInt32(idParam).n)]
    // then `Update`, the second call; its failure is 500 with the table
    // untouched, and a failing re-read is 500 after the update
    ensures ParseInt32(idParam).Parsed? && Get(db, ParseInt32(idParam).n, 0 in faults).Ok?
            && body.Ok? && validate(body.value).None? ==>
      var id := ParseInt32(idParam).n;
      && |o.calls| >= 2 && o.calls[1] == UpdateCall(id, body.value)
      && (1 in faults ==>
            o.reply.status == StatusInternalServerError && o.db == db && |o.calls| == 2)
      && (1 !in faults ==> o.db == Update(db, id, body.value, false).value)
      && (1 !in faults && 2 in faults ==>
            o.reply.status == StatusInternalServerError
            && o.calls == [GetCall(id), UpdateCall(id, body.value), GetCall(id)])
    ensures o.reply.status == StatusOK <==>
      && ParseInt32(idParam).Parsed? && ParseInt32(idParam).n in db.users
      && body.Ok? && validate(body.value).None?
      && 0 !in faults && 1 !in faults && 2 !in faults
  {
    match ParseInt32(idParam)
    case NumError(s) => Outcome(Reply(StatusBadRequest, BadId(s)), db, [])
    case Parsed(id) =>
      var calls := [GetCall(id)];
      match Get(db, id, 0 in faults)
      case Err(_) => Outcome(Reply(StatusNotFound, Message(UserNotFound)), db, calls)
      case Ok(_) =>
        match body
        case Err(e) => Outcome(Reply(StatusBadRequest, Message(e)), db, calls)
        case Ok(changes) =>
          match validate(changes)
          case Some(errs) => Outcome(Reply(StatusBadRequest, InvalidInput(errs)), db, calls)
          case None =>
            var calls := calls + [UpdateCall(id, changes)];
            match Update(db, id, changes, 1 in faults)
            case Err(e) => Outcome(Reply(StatusInternalServerError, Message(e)), db, calls)
            case Ok(updated) =>
              UpdatePreservesValid(db, id, changes);
              var db': Table := updated;
              var calls := calls + [GetCall(id)];
              match Get(db', id, 2 in faults)
              case Err(e) => Outcome(Reply(StatusInternalServerError, Message(e)), db', calls)
              case Ok(dbUser) => Outcome(Reply(StatusOK, OneUser(dbUser)), db', calls)
  }

  /** `DeleteUser`. */
  function DeleteUser(idParam: string, db: Table, faults: set<nat>): (o: Outcome)
    ensures ParseInt32(idParam).NumError? ==>
      o.reply == Reply(StatusBadRequest, BadId(idParam)) && o.calls == [] && o.db == db
    ensures o.reply.status == StatusNotFound <==>
      ParseInt32(idParam).Parsed? && Get(db, ParseInt32(idParam).n, 0 in faults).Err?
    ensures o.reply.status == StatusNotFound ==> o.db == db
    // Delete is asked only for the parsed id, and only once it was found
    ensures forall i :: 0 <= i < |o.calls| && o.calls[i].DeleteCall? ==>
      && i == 1
      && ParseInt32(idParam).Parsed? && o.calls[i].id == ParseInt32(idParam).n
      && ParseInt32(idParam).n in db.users
    ensures o.reply.status == StatusOK <==>
      && ParseInt32(idParam).Parsed?
      && ParseInt32(idParam).n in db.users && 0 !in faults && 1 !in faults
    ensures o.reply.status == StatusOK ==>
      o.reply.payload == EmptyObject && o.db.users == db.users - {ParseInt32(idParam).n}
    ensures o.reply.status != StatusOK ==> o.db == db
    // a found row whose `Delete` fails is 500
    ensures ParseInt32(idParam).Parsed? ==> |o.calls| >= 1 && o.calls[0] == GetCall(ParseInt32(idParam).n)
    ensures ParseInt32(idParam).Parsed? && ParseInt32(idParam).n in db.users
            && 0 !in faults && 1 in faults ==>
      && o.reply.status == StatusInternalServerError
      && o.calls == [GetCall(ParseInt32(idParam).n), DeleteCall(ParseInt32(idParam).n)]
  {
    match ParseInt32(idParam)
    case NumError(s) => Outcome(Reply(StatusBadRequest, BadId(s)), db, [])
    case Parsed(id) =>
      var calls := [GetCall(id)];
      match Get(db, id, 0 in faults)
      case Err(_) => Outcome(Reply(StatusNotFound, Message(UserNotFound)), db, calls)
      case Ok(_) =>
        var calls := calls + [DeleteCall(id)];
        match Delete(db, id, 1 in faults)
        case Err(e) => Outcome(Reply(StatusInternalServerError, Message(e)), db, calls)
        case Ok(deleted) =>
          DeletePreservesValid(db, id);
          var db': Table := deleted;
          Outcome(Reply(StatusOK, EmptyObject), db', calls)
  }

  // ---------------------------------------------------------------- findings

  /** As written, a password the hasher refuses still yields a created user,
      answered 200, whose stored password is empty. */
  lemma CreateUserKeepsUnhashablePassword(body: Result<NewUser>,
                                          validate: NewUser -> Option<string>,
                                          hasher: string -> Result<string>, db: Table)
    requires body.Ok? && validate(body.value).None?
    requires Exists(db, body.value.username, body.value.email, false) == Ok(false)
    requires hasher(body.value.password).Err?
    ensures var o := CreateUser(body, validate, hasher, db, {});
      && o.reply.status == StatusOK
      && o.db.users[db.nextId].password == ""
      && o.db.users[db.nextId].username == body.value.username
  {
    var row := body.value.(password := "");
    CreatedRowIsFoundByName(db, row);
  }

  /** Corrected, the same request is a server error and nothing is stored. */
  lemma CreateUserCheckedRefusesUnhashablePassword(body: Result<NewUser>,
                                                   validate: NewUser -> Option<string>,
                                                   hasher: string -> Result<string>,
                                                   db: Table, faults: set<nat>)
    requires body.Ok? && validate(body.value).None?
    requires Exists(db, body.value.username, body.value.email, 0 in faults) == Ok(false)
    requires hasher(body.value.password).Err?
    ensures var o := CreateUserChecked(body, validate, hasher, db, faults);
      && o.reply == Reply(StatusInternalServerError, Message(hasher(body.value.password).msg))
      && o.db == db
      && forall c :: c in o.calls ==> !c.CreateCall?
  {
  }
}

=== FILE: wrappers.dfy ===
/** Failure-carrying wrappers shared by the whole model. An error from foreign
    code (the database driver, bcrypt, the JWT signer) is only ever carried
    around as its message. */
module Wrappers {

  datatype Option<+T> = None | Some(value: T)

  /** Go's `(value, error)` pair with the error as a message. */
  datatype Result<+T> = Ok(value: T) | Err(msg: string)
}
